=== FILE: README.md ===
# LyriFind core, modelled in Dafny

LyriFind finds a song from a fragment of its lyrics. A chat model calls two
tools over MCP: `identify_song` searches Genius for the lyrics and answers
with up to five song summaries, and `get_song_details` fetches one song by
its Genius id and answers with a detail record (album, credits, streaming
links). Both tools exist twice: once in the MCP server, which talks to
Genius through axios, and once in the web app, which uses `fetch`. The two
copies share the argument handling, the truncation, the shaping and most of
the error wording, and differ in four places: the web copy refuses to run
without a configured token; it reports a non-ok status with the response's
status text where the server reports axios's message; on a network failure
it answers with the unexpected-error text where the server reports
"Genius API error: " and axios's message; and it has a branch for an error
named "AbortError". Its own ten-second timeout does not reach
that branch: `AbortSignal.timeout` rejects with an error named
"TimeoutError" (section "AbortSignal.timeout" of the DOM Standard), so a
timed-out call answers with the unexpected-error text, and the "Request
timed out" text appears only for an abort of another origin. Each tool answers with an
envelope `{ success, count?, songs?/details?, error? }`; every failure is an
envelope with `success: false` and an error text: either a fixed text, or
"Genius API error: " followed by the upstream message.

The web app's chat component receives the tool calls as message parts,
unwraps the serialised envelope from the MCP `content` array, and chooses
what to draw: a progress line while arguments stream, the song list or the
detail card once output arrives, or an error banner. The list and card
components decide heading, badges, the image-host allow-list and the
streaming links.

The model is pure: every HTTP call, `JSON.parse` and `new URL(...)` is a
function parameter (an oracle), so each contract holds for every answer the
outside world could give.

Files:

- `options.dfy`: `Option`.
- `js_strings.dfy`: the JavaScript string operations the code relies on
  (truthiness, `||` fallback, `replace` of the first occurrence, `split` on
  one character with its `join` inverse, `trim`, decimal rendering of counts).
- `genius.dfy`: the Genius wire types, the tool envelopes, the error texts,
  argument handling (`limit = 3`, the `song_id` check), truncation and
  shaping of songs and details.
- `server_tools.dfy`: the MCP server copy of both tools (axios).
- `web_tools.dfy`: the web copy of both tools (`fetch`), and lemmas relating
  it to the server copy.
- `message_parts.dfy`: the message-part type guards and `spotifyUriToUrl`.
- `chat.dfy`: the chat component's part helpers, output unwrapping, render
  branch selection and submission guard.
- `cards.dfy`: the image-host allow-list, the song card and the detail card.
- `results_display.dfy`: the list of search matches.
- `end_to_end.dfy`: lemmas that follow an envelope from a tool to the screen.

## Model

| member | source | states |
|---|---|---|
| ServerTools.IdentifySong | apps/mcp-server/src/tools/genius.ts:41-105 | The envelope is well formed; no hits gives the "no songs found" text; otherwise success with the first `slice(0, min(limit, 5))` hits, each flattened to a summary; 401, 429 and other HTTP errors give their own texts; any other failure gives the unexpected-search text. |
| ServerTools.IdentifySongWithinSchema | apps/mcp-server/src/tools/genius.ts:58-84 | With `limit` at least 1, a successful search returns between one and five songs, exactly the first `min(limit, 5, hits)` hits in upstream order. |
| ServerTools.DefaultLimitIsThree | apps/mcp-server/src/tools/genius.ts:42 | Omitting `limit` gives the same answer as `limit = 3`. |
| ServerTools.LimitOutsideSchema | apps/mcp-server/src/tools/genius.ts:67 | Below the input schema's minimum, `slice` shows through: `limit = 0` succeeds with no songs and `limit = -1` drops the last hit instead of capping at five. |
| ServerTools.FractionalLimitTruncates | apps/mcp-server/src/tools/genius.ts:67 | A fractional `limit`, which the server's schema admits, is truncated by `slice`: `limit = 2.5` keeps two songs. |
| ServerTools.GetSongDetails | apps/mcp-server/src/tools/songDetails.ts:75-156 | A missing, zero, NaN or non-number id is refused with the id message; otherwise a response becomes the shaped detail record; 401, 404, 429 and other HTTP errors give their own texts; any other failure gives the unexpected-details text. |
| ServerTools.InvalidIdMakesNoRequest | apps/mcp-server/src/tools/songDetails.ts:79-84 | A refused id gives the same answer whatever Genius would have said, so no request is made. |
| ServerTools.OnlyTheRequestedSongMatters | apps/mcp-server/src/tools/songDetails.ts:86-96 | Only the song with the requested id is fetched: two endpoints that agree on that id give the same answer. |
| Genius.Message | apps/web/lib/mcp/tools/songDetails.ts:76-167 | Every failure text is non-empty; a text starts with "Genius API error: " exactly for an upstream failure, and then the upstream text follows it. |
| Genius.FixedMessage | apps/web/lib/mcp/tools/songDetails.ts:76-167 | The fixed failure texts have pairwise different lengths and none starts like an upstream error. |
| Genius.SearchStatusError | apps/mcp-server/src/tools/genius.ts:89-96 | Search status table: 401 exactly gives the token error, 429 exactly the rate limit, every other status (or none) the upstream text. |
| Genius.DetailsStatusError | apps/mcp-server/src/tools/songDetails.ts:138-147 | Details status table: 401, 404 and 429 each exactly give their own error, every other status (or none) the upstream text. |
| Genius.ValidSongId | apps/mcp-server/src/tools/songDetails.ts:79-84 | An id is accepted if and only if it is a number other than 0, and the accepted id is the one given. |
| Genius.SliceEnd | apps/mcp-server/src/tools/genius.ts:67 | Where `slice(0, end)` stops: within the list; the whole part of a non-negative end capped at the length; 0 for an end between -1 and 0; counted from the back for an end of -1 or less. |
| Genius.TruncateTowardZero | apps/mcp-server/src/tools/genius.ts:67 | The index `slice` uses for a number: the integer next to it toward zero. |
| Genius.LimitHits | apps/mcp-server/src/tools/genius.ts:67 | The kept hits are a prefix of the hits, and for `limit >= 1` their number is `min(floor(limit), 5, hits)`. |
| Genius.ToSongBijective | apps/mcp-server/src/tools/genius.ts:70-76 | Flattening a hit to a summary loses nothing: it has an inverse on both sides. |
| Genius.ToSongs | apps/mcp-server/src/tools/genius.ts:70-76 | One summary per hit, in order, each the flattening of its hit. |
| Genius.Names | apps/mcp-server/src/tools/songDetails.ts:118-120 | The name list has one entry per artist, the artist's name, in order. |
| Genius.ShapeDetails | apps/mcp-server/src/tools/songDetails.ts:102-127 | Every field of the detail record comes from its raw counterpart: id, title and url copied; the release date, song art and Apple Music URL renamed; the album's three fields copied when there is an album and absent otherwise; the primary artist's name and url; the credit lists as the names of the credited artists, in order; the description as the plain text of the description object. |
| Genius.ShapeDetailsRoundTrip | apps/mcp-server/src/tools/songDetails.ts:102-127 | Shaping is invertible: every detail record is the shape of a raw song, and a raw song with a description object is recovered from its shape. |
| Genius.MessageInjective | apps/web/lib/mcp/tools/songDetails.ts:76-167 | Different failures never share an error text, so the text identifies the failure. |
| WebTools.IdentifySong | apps/web/lib/mcp/tools/genius.ts:39-125 | A missing or empty token is refused before anything else; then the same hit handling as the server copy and the status table with the status text; an "AbortError" answers "Request timed out. Please try again."; the signal's own "TimeoutError" and any other throw answer with the unexpected-search text. |
| WebTools.GetSongDetails | apps/web/lib/mcp/tools/songDetails.ts:73-168 | The token check first, then the id check, then the same shaping and status table as the server copy; an "AbortError" answers with the timed-out text; a "TimeoutError" and any other throw with the unexpected-details text. |
| WebTools.MissingTokenComesFirst | apps/web/lib/mcp/tools/songDetails.ts:76-92 | With no token and an invalid id, the answer is the configuration error and not the id error. |
| WebTools.IdentifySongCopiesAgree | apps/web/lib/mcp/tools/genius.ts:52-123 | With a token and a response received (no timeout, abort or network failure), the web `identify_song` equals the server one when `fetch` outcomes are read as axios outcomes. |
| WebTools.GetSongDetailsCopiesAgree | apps/web/lib/mcp/tools/songDetails.ts:93-167 | With a token and a response received (no timeout, abort or network failure), the web `get_song_details` equals the server one under the same reading. |
| WebTools.TimeoutAnswersDiffer | apps/web/lib/mcp/tools/genius.ts:61-123 | On a timeout the copies differ and neither says the request timed out: the web copy's "TimeoutError" misses the "AbortError" test and gives the unexpected-error text, the server copy gives "Genius API error: " and axios's message; for both tools. |
| WebTools.NetworkFailureAnswersDiffer | apps/web/lib/mcp/tools/genius.ts:120-123 | On a network failure the copies differ, for both tools: the web copy gives the unexpected-error text, the server copy gives "Genius API error: " and axios's message. |
| WebTools.TimedOutTextOnlyFromAbortError | apps/web/lib/mcp/tools/genius.ts:113-118 | With a token, `identify_song` answers "Request timed out. Please try again." if and only if the fetch rejected with an "AbortError". |
| MessageParts.StateTag | apps/web/lib/types.ts:66 | Each stage of a tool call has its own wire tag, and the input stages are exactly those whose tag starts with "i" (the source's tags are "input-…" and "output-…"). |
| MessageParts.StateTagInjective | apps/web/lib/types.ts:66 | Two stages share a tag if and only if they are the same stage. |
| ChatInterface.StateTagsMatch | apps/web/components/chat-interface.tsx:55-57 | The state strings the component compares against are the tags of the four stages. |
| MessageParts.GuardsClassifyParts | apps/web/lib/types.ts:95-105 | The three part guards never overlap, reject null and non-objects, and on a real part recognise exactly its own kind. |
| MessageParts.SpotifyUriToUrl | apps/web/lib/types.ts:108-116 | No link for an absent or empty URI; a link exactly when the URI splits on ':' into three pieces starting with "spotify", namely `https://open.spotify.com/<type>/<id>`. |
| MessageParts.SpotifyUriOfParts | apps/web/lib/types.ts:108-116 | Every "spotify:<type>:<id>" with colon-free pieces converts to the link for that type and id. |
| MessageParts.SpotifyUriCharacterised | apps/web/lib/types.ts:108-116 | A URI converts to a given link if and only if it is "spotify:<type>:<id>" with colon-free pieces and the link is built from those pieces. |
| MessageParts.MalformedSpotifyUris | apps/web/lib/types.ts:111-115 | Too few segments, too many segments, or another scheme give no link. |
| JsStrings.ReplaceFirst | apps/web/components/chat-interface.tsx:51 | `replace` with a string pattern changes only the first occurrence, leaving a string without one unchanged. |
| JsStrings.Split | apps/web/lib/types.ts:111 | `split(':')` gives at least one piece, no piece holds the separator, and joining the pieces with it gives back the string. |
| JsStrings.SplitJoin | apps/web/lib/types.ts:111 | Splitting a join of separator-free pieces gives back the pieces. |
| JsStrings.TrimEmptyIffBlank | apps/web/components/chat-interface.tsx:118 | `trim()` gives the empty string exactly when the input is all whitespace. |
| ChatInterface.PartTestsExclusive | apps/web/components/chat-interface.tsx:32-44 | The text, dynamic-tool and static-tool part tests never hold together, and a "step-start" part passes none. |
| ChatInterface.GetToolName | apps/web/components/chat-interface.tsx:47-52 | A dynamic part's name is its `toolName` (or empty); a "tool-..." part's name is what follows the prefix; a type without "tool-" is its own name. |
| ChatInterface.GetToolState | apps/web/components/chat-interface.tsx:55-57 | A non-empty state is kept; a missing or empty one reads as "input-available". |
| ChatInterface.FindTextItem | apps/web/components/chat-interface.tsx:67 | The found item is the first content item of type "text". |
| ChatInterface.ParseMcpToolOutput | apps/web/components/chat-interface.tsx:60-80 | Nothing for a falsy output; the parse of the first text item's text when it is non-empty; otherwise the output itself. |
| ChatInterface.ResultFor | apps/web/components/chat-interface.tsx:158-175 | The song list (top match only when it has one song) or detail card exactly when `success` holds with a payload; else the error banner with the non-empty error; else nothing. |
| ChatInterface.ToolBranches | apps/web/components/chat-interface.tsx:149-186 | Progress exactly while input is pending and nothing parsed, the result exactly once output is available and parsed, the call error exactly in the error state with an error text; at most one is drawn; the progress line shows the call's lyrics for `identify_song` and none for `get_song_details`. |
| ChatInterface.RenderToolPart | apps/web/components/chat-interface.tsx:136-244 | `identify_song` and `get_song_details` get their branch selection; every other tool name, and only those, gets the generic line with its name and state. |
| ChatInterface.RenderPart | apps/web/components/chat-interface.tsx:316-351 | "step-start" parts draw nothing; a text bubble exactly for text parts; the tool renderer exactly for dynamic and "tool-..." parts. |
| ChatInterface.RenderMessage | apps/web/components/chat-interface.tsx:316-351 | One view per part, in order. |
| ChatInterface.HandleSubmit | apps/web/components/chat-interface.tsx:116-124 | Nothing is sent exactly when the input is blank, and then the input stays; otherwise the untrimmed input is sent and the box is cleared. |
| ImageHosts.IsAllowedImageHost | apps/web/components/song-details-card.tsx:30-38 | Allowed exactly when the URL parses and its host is one of the four allowed hosts or ends with "." followed by one. |
| ImageHosts.AnyHostMatches | apps/web/components/song-card.tsx:26 | `some` holds exactly when some listed host matches. |
| ImageHosts.DotBoundary | apps/web/components/song-details-card.tsx:34 | A name formed by putting text before an allowed host matches it exactly when that text is empty or ends with a dot. |
| ImageHosts.LookalikeRejected | apps/web/components/song-details-card.tsx:33-34 | A look-alike host such as "evilimages.genius.com" is not allowed. |
| ImageHosts.SubdomainAccepted | apps/web/components/song-card.tsx:25-26 | A real subdomain such as "cdn.images.genius.com" is allowed. |
| SongCard.CardArtIsAllowed | apps/web/components/song-card.tsx:22-34 | A card never draws art whose host is outside the allow-list, and its link is never empty. |
| SongCard.Render | apps/web/components/song-card.tsx:32-104 | Art only when given, non-empty, on an allowed host and not failed; the link falls back to "#"; the badge exactly for the top match. |
| SongDetailsCard.ImageUrl | apps/web/components/song-details-card.tsx:44 | The song art when non-empty, else the album cover when there is an album, else empty. |
| SongDetailsCard.CreditLine | apps/web/components/song-details-card.tsx:136 | Up to three names joined by ", ", then " +N more" for the hidden rest. |
| SongDetailsCard.CreditLineCountsHidden | apps/web/components/song-details-card.tsx:145 | The number in " +N more" plus the three shown names is the length of the list. |
| SongDetailsCard.LinkListShape | apps/web/components/song-details-card.tsx:159-210 | The buttons come in the order Spotify, YouTube, Apple Music, Genius, each kind at most once, Genius last, each pointing at its own target. |
| SongDetailsCard.LinkListPresence | apps/web/components/song-details-card.tsx:159-210 | Each optional button is present exactly when its target is; only Genius remains exactly when none is. |
| SongDetailsCard.StreamingLinks | apps/web/components/song-details-card.tsx:159-210 | Spotify exactly when the URI converts, pointing at the converted link; YouTube and Apple Music exactly when their URLs are non-empty, pointing at them; the Genius page always, last; in that order. |
| SongDetailsCard.Render | apps/web/components/song-details-card.tsx:40-222 | Image, release and album badges, credits section and lines each appear exactly under their condition; the badges show the release date and the album's name; the "no streaming links" note appears exactly when Genius is the only link. |
| SongResultsDisplay.Cards | apps/web/components/song-results-display.tsx:34-51 | One card per song, in order, each carrying its song's title, artist, art and link, and marked as top match exactly at index 0 of the list. |
| SongResultsDisplay.Display | apps/web/components/song-results-display.tsx:13-55 | Nothing for missing or empty songs; only the first song under "Found your song!" when showing the top match, else every song in order; only the first card is the top match; cards are compact exactly when several are listed. |
| SongResultsDisplay.Heading | apps/web/components/song-results-display.tsx:27-30 | The heading is "Found your song!" exactly when only the top match is shown, and starts with "Found " in every case. |
| SongResultsDisplay.HeadingCountsMatches | apps/web/components/song-results-display.tsx:27-30 | The heading shows the number of matches in decimal, with "matches" for every count but one. |
| EndToEnd.McpOutputUnwraps | apps/mcp-server/src/index.ts:44-50 | An envelope wrapped as the single text item of `content` is parsed back by the chat component. |
| EndToEnd.SearchEnvelopeRendering | apps/web/components/chat-interface.tsx:141-189 | A settled `identify_song` part is drawn as its envelope says: the song list on success, the error banner otherwise, nothing else. |
| EndToEnd.DetailsEnvelopeRendering | apps/web/components/chat-interface.tsx:192-236 | A settled `get_song_details` part is drawn as the detail card on success and the error banner otherwise. |
| EndToEnd.SingleMatchFlow | apps/mcp-server/src/tools/genius.ts:67-84 | With `limit = 1` the first hit comes back alone, is shown under "Found your song!", and its id fetches that same song's details. |

## Left out

- HTTP transport: axios, `fetch`, headers, the Bearer token text, the
  request timeout as elapsed time and `AbortController` are not modelled;
  each request is a function from its target to how it settles.
- Logging (`logger`, `console`) has no effect on any answer and is left out.
- `JSON.stringify` and `JSON.parse` are not modelled; the parse is a
  parameter, and the end-to-end lemmas assume it gives back the envelope's
  fields.
- `new URL(...)` is a parameter (`hostOf`) returning the hostname or
  nothing when the constructor throws.
- The MCP server wiring (`apps/mcp-server/src/index.ts` beyond the `content`
  wrapper), the web route and environment loading are not part of this model;
  of the input schema's `limit` bounds only the lower one (at least 1) is
  assumed, as the precondition of `ServerTools.IdentifySongWithinSchema`;
  the cap at five and the default of 3 are the tool's own (`Math.min` and
  `Genius.LimitOrDefault`).
- ServerTools.IdentifySong: `limit` is a real number; NaN and the
  infinities are not modelled (the schema's bounds exclude them).
- Genius.ValidSongId: `song_id` is an integer or one of absent, NaN and
  non-number; fractional and infinite numbers are not modelled.
- WebTools.IdentifySongCopiesAgree: relates the copies only when the web
  status text plays the part of axios's error message, and leaves out
  timeouts, aborts and network failures, where the copies differ (see
  `WebTools.TimeoutAnswersDiffer` and `WebTools.NetworkFailureAnswersDiffer`);
  the real correspondence between the two texts is outside the code.
- Genius.ShapeDetailsRoundTrip: an absent `description` object and one
  without plain text shape alike, so that case is not recovered.
- React state over time (the image `onError` flag, re-renders, the order in
  which tool states arrive) is reduced to inputs of the render functions;
  styling, icons and layout are not modelled.
- The AI SDK's streaming (`useChat`, `sendMessage`) is outside the model;
  `ChatInterface.HandleSubmit` states only what is sent and what the input
  box holds afterwards.

A note on the limit: the tools themselves accept `limit = 0` and answer
`success: true` with no songs (see `ServerTools.LimitOutsideSchema`); only
the MCP input schema keeps `limit` at 1 or more, which is why "a successful
search has at least one song" is stated under that precondition.

=== FILE: cards.dfy ===
/** The image-host allow-list both cards apply before drawing remote art.
    URL parsing is a parameter: `hostOf(url)` is `new URL(url).hostname`,
    or `None` when the constructor throws. */
module ImageHosts {
  import opened Options
  import opened JsStrings

  const AllowedHosts: seq<string> :=
    ["images.genius.com", "images.rapgenius.com", "s3.amazonaws.com", "i.scdn.co"]

  /** The host itself, or a subdomain of it: the suffix must start at a dot. */
  predicate MatchesHost(hostname: string, host: string) {
    hostname == host || EndsWith(hostname, "." + host)
  }

  /** Whether some host of the list is the hostname or a domain above it. */
  function AnyHostMatches(hostname: string, hosts: seq<string>): (ok: bool)
    ensures ok <==> exists k :: 0 <= k < |hosts| && MatchesHost(hostname, hosts[k])
  {
    if |hosts| == 0 then false
    else MatchesHost(hostname, hosts[0]) || AnyHostMatches(hostname, hosts[1..])
  }

  /** `isAllowedImageHost`: the URL parses and its host is one of the
      allowed hosts or a subdomain of one. */
  function IsAllowedImageHost(url: string, hostOf: string -> Option<string>): (ok: bool)
    ensures ok <==> (hostOf(url).Some? &&
      exists k :: 0 <= k < |AllowedHosts| && MatchesHost(hostOf(url).value, AllowedHosts[k]))
  {
    match hostOf(url)
    case None => false
    case Some(hostname) => AnyHostMatches(hostname, AllowedHosts)
  }

  /** The dot boundary: a name made by putting `front` before `host`
      matches `host` exactly when nothing was put in front or what was put in
      front ends with a dot. */
  lemma DotBoundary(front: string, host: string)
    ensures MatchesHost(front + host, host) <==> front == "" || EndsWith(front, ".")
  {
    var h := front + host;
    if front != "" && EndsWith(front, ".") {
      assert h[|h| - |"." + host|..] == front[|front| - 1..] + host;
    }
    if EndsWith(h, "." + host) {
      assert front[|front| - 1..] + host == h[|h| - |"." + host|..];
      assert front[|front| - 1..] == ("." + host)[..1];
    }
    if h == host {
      assert |front| == 0;
    }
  }

  /** A look-alike name that merely ends with an allowed host's text is
      rejected. */
  lemma LookalikeRejected(url: string, hostOf: string -> Option<string>)
    requires hostOf(url) == Some("evilimages.genius.com")
    ensures !IsAllowedImageHost(url, hostOf)
  {
    var e := hostOf(url).value;
    DotBoundary("evil", AllowedHosts[0]);
    assert "evil" + AllowedHosts[0] == e;
    LookalikeMissesOtherHosts();
    forall k | 0 <= k < |AllowedHosts| ensures !MatchesHost(e, AllowedHosts[k]) {
      assert k == 0 || k == 1 || k == 2 || k == 3;
    }
  }

  /** A real subdomain of an allowed host is accepted. */
  lemma SubdomainAccepted(url: string, hostOf: string -> Option<string>)
    requires hostOf(url) == Some("cdn.images.genius.com")
    ensures IsAllowedImageHost(url, hostOf)
  {
    var c := hostOf(url).value;
    DotBoundary("cdn.", AllowedHosts[0]);
    assert "cdn." + AllowedHosts[0] == c;
    assert MatchesHost(c, AllowedHosts[0]);
  }

  /** The three other allowed hosts do not match the look-alike either: in
      each case the character where the dot would have to be is not one. */
  lemma LookalikeMissesOtherHosts()
    ensures !MatchesHost("evilimages.genius.com", AllowedHosts[1])
    ensures !MatchesHost("evilimages.genius.com", AllowedHosts[2])
    ensures !MatchesHost("evilimages.genius.com", AllowedHosts[3])
  {
    var e := "evilimages.genius.com";
    assert |e| == 21 && e[0] == 'e' && e[4] == 'i' && e[11] == 'g';
    assert |AllowedHosts[1]| == 20 && |AllowedHosts[2]| == 16 && |AllowedHosts[3]| == 9;
    assert e[|e| - 21..][0] == 'e';
    assert e[|e| - 17..][0] == 'i';
    assert e[|e| - 10..][0] == 'g';
  }
}

/** One search match as a card. */
module SongCard {
  import opened Options
  import opened JsStrings
  import opened ImageHosts

  datatype CardProps = CardProps(
    title: string,
    artist: string,
    albumArt: Option<string>,
    url: Option<string>,
    compact: bool,
    isTopMatch: bool)

  /** The card's choices: the art drawn (if any), the link target, the badge. */
  datatype CardView = CardView(art: Option<string>, href: string, topMatchBadge: bool, compact: bool)

  /** `SongCard`, given whether the art has already failed to load. Art is
      drawn only when it is given, non-empty, on an allowed host and has not
      failed; the link falls back to "#"; the badge follows `isTopMatch`. */
  function Render(props: CardProps, imageError: bool, hostOf: string -> Option<string>): (v: CardView)
    ensures v.art.Some? <==>
      TruthyOpt(props.albumArt) && IsAllowedImageHost(props.albumArt.value, hostOf) && !imageError
    ensures v.art.Some? ==> v.art == props.albumArt
    ensures TruthyOpt(props.url) ==> v.href == props.url.value
    ensures !TruthyOpt(props.url) ==> v.href == "#"
    ensures v.topMatchBadge <==> props.isTopMatch
    ensures v.compact <==> props.compact
  {
    var validArt := TruthyOpt(props.albumArt) && IsAllowedImageHost(props.albumArt.value, hostOf) && !imageError;
    CardView(
      art := if validArt then props.albumArt else None,
      href := OrElse(props.url, "#"),
      topMatchBadge := props.isTopMatch,
      compact := props.compact)
  }

  /** A card never draws art from a host outside the allow-list, and its
      link is never empty. */
  lemma CardArtIsAllowed(props: CardProps, imageError: bool, hostOf: string -> Option<string>)
    ensures var v := Render(props, imageError, hostOf);
      && (v.art.Some? ==> (hostOf(v.art.value).Some? &&
            exists k :: 0 <= k < |AllowedHosts| && MatchesHost(hostOf(v.art.value).value, AllowedHosts[k])))
      && v.href != ""
  {
  }
}

/** The full detail card of one song. */
module SongDetailsCard {
  import opened Options
  import opened JsStrings
  import opened Genius
  import opened ImageHosts
  import MessageParts

  /** The buttons under "Listen on", in the order they are drawn. */
  datatype StreamingLink =
    | SpotifyLink(url: string)
    | YouTubeLink(url: string)
    | AppleMusicLink(url: string)
    | GeniusLink(url: string)

  datatype DetailsCardView = DetailsCardView(
    imageUrl: string,
    showImage: bool,
    releaseBadge: Option<string>,
    albumBadge: Option<string>,
    showCredits: bool,
    featuring: Option<string>,
    producedBy: Option<string>,
    writtenBy: Option<string>,
    links: seq<StreamingLink>,
    noLinksNote: bool)

  /** The picture the card shows: the song art, else the album cover, else
      nothing (the empty string). */
  function ImageUrl(d: SongDetails): (url: string)
    ensures d.songArtUrl != "" ==> url == d.songArtUrl
    ensures d.songArtUrl == "" && d.album.Some? ==> url == d.album.value.coverArtUrl
    ensures d.songArtUrl == "" && d.album.None? ==> url == ""
  {
    if d.songArtUrl != "" then d.songArtUrl
    else match d.album
         case Some(a) => OrElse(Some(a.coverArtUrl), "")
         case None => ""
  }

  /** A producer or writer line: the first three names joined by ", ", then
      " +N more" when N further names are hidden. */
  function CreditLine(names: seq<string>): (line: string)
    ensures |names| <= 3 ==> line == Join(names, ", ")
    ensures |names| > 3 ==> line == Join(names[..3], ", ") + " +" + NatToDecimal(|names| - 3) + " more"
  {
    var shown := if |names| <= 3 then names else names[..3];
    assert |names| <= 3 ==> shown == names;
    Join(shown, ", ") + (if |names| > 3 then " +" + NatToDecimal(|names| - 3) + " more" else "")
  }

  /** The number in " +N more" plus the three names shown is the whole
      list. */
  lemma CreditLineCountsHidden(names: seq<string>)
    requires |names| > 3
    ensures exists n: string :: && (forall k :: 0 <= k < |n| ==> '0' <= n[k] <= '9')
                                && CreditLine(names) == Join(names[..3], ", ") + " +" + n + " more"
                                && 3 + DecimalValue(n) == |names|
  {
    var n := NatToDecimal(|names| - 3);
    DecimalRoundTrip(|names| - 3);
    assert CreditLine(names) == Join(names[..3], ", ") + " +" + n + " more";
  }

  /** The place of a button in the "Listen on" row. */
  function Rank(link: StreamingLink): nat {
    match link
    case SpotifyLink(_) => 0
    case YouTubeLink(_) => 1
    case AppleMusicLink(_) => 2
    case GeniusLink(_) => 3
  }

  /** The buttons for the given targets, in drawing order: Spotify when
      there is a link, YouTube and Apple Music when their URLs are
      non-empty, and Genius always, last. */
  function LinkList(spotify: Option<string>, youtube: Option<string>, apple: Option<string>,
                    genius: string): seq<StreamingLink>
  {
    (if spotify.Some? then [SpotifyLink(spotify.value)] else [])
    + (if TruthyOpt(youtube) then [YouTubeLink(youtube.value)] else [])
    + (if TruthyOpt(apple) then [AppleMusicLink(apple.value)] else [])
    + [GeniusLink(genius)]
  }

  /** The buttons come in the fixed order, each kind at most once, Genius
      last, and each points at its own target. */
  lemma LinkListShape(spotify: Option<string>, youtube: Option<string>, apple: Option<string>, genius: string)
    ensures var links := LinkList(spotify, youtube, apple, genius);
      && |links| >= 1 && links[|links| - 1] == GeniusLink(genius)
      && (forall i, j :: 0 <= i < j < |links| ==> Rank(links[i]) < Rank(links[j]))
      && (forall k :: 0 <= k < |links| ==>
            && (links[k].SpotifyLink? ==> spotify == Some(links[k].url))
            && (links[k].YouTubeLink? ==> youtube == Some(links[k].url))
            && (links[k].AppleMusicLink? ==> apple == Some(links[k].url))
            && (links[k].GeniusLink? ==> links[k].url == genius))
  {
  }

  /** A kind of button is present exactly when its target is. */
  lemma LinkListPresence(spotify: Option<string>, youtube: Option<string>, apple: Option<string>, genius: string)
    ensures var links := LinkList(spotify, youtube, apple, genius);
      && ((exists k :: 0 <= k < |links| && links[k].SpotifyLink?) <==> spotify.Some?)
      && ((exists k :: 0 <= k < |links| && links[k].YouTubeLink?) <==> TruthyOpt(youtube))
      && ((exists k :: 0 <= k < |links| && links[k].AppleMusicLink?) <==> TruthyOpt(apple))
      && (|links| == 1 <==> spotify.None? && !TruthyOpt(youtube) && !TruthyOpt(apple))
  {
    var s := if spotify.Some? then [SpotifyLink(spotify.value)] else [];
    var y := if TruthyOpt(youtube) then [YouTubeLink(youtube.value)] else [];
    var a := if TruthyOpt(apple) then [AppleMusicLink(apple.value)] else [];
    var links := s + y + a + [GeniusLink(genius)];
    assert links == LinkList(spotify, youtube, apple, genius);
    assert spotify.Some? ==> links[0].SpotifyLink?;
    assert TruthyOpt(youtube) ==> links[|s|].YouTubeLink?;
    assert TruthyOpt(apple) ==> links[|s| + |y|].AppleMusicLink?;
    assert forall k :: 0 <= k < |links| && links[k].SpotifyLink? ==> k < |s|;
    assert forall k :: 0 <= k < |links| && links[k].YouTubeLink? ==> |s| <= k < |s| + |y|;
    assert forall k :: 0 <= k < |links| && links[k].AppleMusicLink? ==> |s| + |y| <= k < |s| + |y| + |a|;
  }

  /** The "Listen on" buttons of a song: Spotify when its URI converts to a
      link, YouTube and Apple Music when their URLs are non-empty, and the
      Genius page always, last; in that order, each pointing at its own
      URL. */
  function StreamingLinks(d: SongDetails): (links: seq<StreamingLink>)
    ensures |links| >= 1 && links[|links| - 1] == GeniusLink(d.url)
    ensures forall i, j :: 0 <= i < j < |links| ==> Rank(links[i]) < Rank(links[j])
    ensures (exists k :: 0 <= k < |links| && links[k].SpotifyLink?)
        <==> MessageParts.SpotifyUriToUrl(d.spotifyUri).Some?
    ensures (exists k :: 0 <= k < |links| && links[k].YouTubeLink?) <==> TruthyOpt(d.youtubeUrl)
    ensures (exists k :: 0 <= k < |links| && links[k].AppleMusicLink?) <==> TruthyOpt(d.appleMusicUrl)
    ensures forall k :: 0 <= k < |links| ==>
      && (links[k].SpotifyLink? ==> MessageParts.SpotifyUriToUrl(d.spotifyUri) == Some(links[k].url))
      && (links[k].YouTubeLink? ==> d.youtubeUrl == Some(links[k].url))
      && (links[k].AppleMusicLink? ==> d.appleMusicUrl == Some(links[k].url))
      && (links[k].GeniusLink? ==> links[k].url == d.url)
    ensures |links| == 1 <==>
      MessageParts.SpotifyUriToUrl(d.spotifyUri).None? && !TruthyOpt(d.youtubeUrl) && !TruthyOpt(d.appleMusicUrl)
  {
    var spotify := MessageParts.SpotifyUriToUrl(d.spotifyUri);
    LinkListShape(spotify, d.youtubeUrl, d.appleMusicUrl, d.url);
    LinkListPresence(spotify, d.youtubeUrl, d.appleMusicUrl, d.url);
    LinkList(spotify, d.youtubeUrl, d.appleMusicUrl, d.url)
  }

  /** `SongDetailsCard`, given whether the image has already failed to load.
      The image is drawn only from a non-empty URL on an allowed host that
      has not failed; the credits section appears when any credit list is
      non-empty, each line when its own list is; the "no streaming links"
      note appears exactly when Genius is the only link. */
  function Render(d: SongDetails, imageError: bool, hostOf: string -> Option<string>): (v: DetailsCardView)
    ensures v.imageUrl == ImageUrl(d)
    ensures v.showImage <==> v.imageUrl != "" && IsAllowedImageHost(v.imageUrl, hostOf) && !imageError
    ensures v.releaseBadge.Some? <==> d.releaseDate != ""
    ensures v.releaseBadge.Some? ==> v.releaseBadge.value == d.releaseDate
    ensures v.albumBadge.Some? <==> d.album.Some?
    ensures v.albumBadge.Some? ==> v.albumBadge.value == d.album.value.name
    ensures v.showCredits <==> |d.featuredArtists| > 0 || |d.producers| > 0 || |d.writers| > 0
    ensures v.featuring.Some? <==> |d.featuredArtists| > 0
    ensures v.featuring.Some? ==> v.featuring.value == Join(d.featuredArtists, ", ")
    ensures v.producedBy.Some? <==> |d.producers| > 0
    ensures v.producedBy.Some? ==> v.producedBy.value == CreditLine(d.producers)
    ensures v.writtenBy.Some? <==> |d.writers| > 0
    ensures v.writtenBy.Some? ==> v.writtenBy.value == CreditLine(d.writers)
    ensures v.links == StreamingLinks(d)
    ensures v.noLinksNote <==> |v.links| == 1
  {
    var imageUrl := ImageUrl(d);
    var links := StreamingLinks(d);
    DetailsCardView(
      imageUrl := imageUrl,
      showImage := imageUrl != "" && IsAllowedImageHost(imageUrl, hostOf) && !imageError,
      releaseBadge := if d.releaseDate != "" then Some(d.releaseDate) else None,
      albumBadge := if d.album.Some? then Some(d.album.value.name) else None,
      showCredits := |d.featuredArtists| > 0 || |d.producers| > 0 || |d.writers| > 0,
      featuring := if |d.featuredArtists| > 0 then Some(Join(d.featuredArtists, ", ")) else None,
      producedBy := if |d.producers| > 0 then Some(CreditLine(d.producers)) else None,
      writtenBy := if |d.writers| > 0 then Some(CreditLine(d.writers)) else None,
      links := links,
      noLinksNote := MessageParts.SpotifyUriToUrl(d.spotifyUri).None? && !TruthyOpt(d.youtubeUrl)
                     && !TruthyOpt(d.appleMusicUrl))
  }
}

=== FILE: chat.dfy ===
/** The chat component's handling of message parts: the duck-typed part
    tests, the tool name and state read off a part, the unwrapping of an MCP
    tool output, the choice of what to draw for each part, and the guard that
    keeps blank input from being sent. Drawing itself is not modelled: each
    choice is a value saying which branch is taken and with what data. */
module ChatInterface {
  import opened Options
  import opened JsStrings
  import opened Genius
  import MessageParts

  /** One item of an MCP tool output's `content` array. */
  datatype ContentItem = ContentItem(kind: string, text: Option<string>)

  /** The fields the renderer reads off a parsed tool output. A field the
      value lacks is `None`; `success` is its truthiness. */
  datatype ToolResult = ToolResult(
    success: bool,
    songs: Option<seq<Song>>,
    details: Option<SongDetails>,
    error: Option<string>)

  /** A part's `output`: falsy, or a truthy value that may carry an MCP
      `content` array and that, read directly, has the fields `asResult`. */
  datatype ToolOutput =
    | Falsy
    | Present(content: Option<seq<ContentItem>>, asResult: ToolResult)

  /** A message part as the SDK delivers it; `text` is present only when the
      part's `text` is a string, and `inputLyrics` is `input?.lyrics`. */
  datatype BasePart = BasePart(
    kind: string,
    toolName: Option<string>,
    state: Option<string>,
    inputLyrics: Option<string>,
    output: ToolOutput,
    errorText: Option<string>,
    text: Option<string>)

  /** A text part: type "text" with a string `text`. */
  predicate IsTextPart(part: BasePart) {
    part.kind == "text" && part.text.Some?
  }

  /** A tool call the SDK did not know statically, naming its tool in
      `toolName`. */
  predicate IsDynamicToolPart(part: BasePart) {
    part.kind == "dynamic-tool"
  }

  /** A statically typed tool call, whose type is "tool-" and the tool name. */
  predicate IsToolPart(part: BasePart) {
    StartsWith(part.kind, "tool-")
  }

  /** The three part tests are mutually exclusive, and a "step-start" part
      passes none of them. */
  lemma PartTestsExclusive(part: BasePart)
    ensures !(IsTextPart(part) && IsDynamicToolPart(part))
    ensures !(IsTextPart(part) && IsToolPart(part))
    ensures !(IsDynamicToolPart(part) && IsToolPart(part))
    ensures part.kind == "step-start" ==> !IsTextPart(part) && !IsDynamicToolPart(part) && !IsToolPart(part)
  {
    if IsToolPart(part) {
      assert part.kind[..5] == "tool-";
      assert part.kind[0] == 't' && part.kind[1] == 'o';
    }
    if part.kind == "step-start" {
      assert part.kind[1] == 't';
    }
  }

  /** `getToolName`: a dynamic part names its tool in `toolName` (or has the
      empty name); any other part has its type with the first "tool-"
      removed, which for a "tool-..." part is the text after the prefix. */
  function GetToolName(part: BasePart): (name: string)
    ensures IsDynamicToolPart(part) ==> name == OrElse(part.toolName, "")
    ensures !IsDynamicToolPart(part) && IsToolPart(part) ==> part.kind == "tool-" + name
    ensures !IsDynamicToolPart(part) && IndexOf(part.kind, "tool-").None? ==> name == part.kind
  {
    if IsDynamicToolPart(part) then OrElse(part.toolName, "")
    else
      var name := ReplaceFirst(part.kind, "tool-", "");
      assert IsToolPart(part) ==> part.kind == "tool-" + name by {
        if IsToolPart(part) {
          ReplacePrefix(part.kind, "tool-");
          assert part.kind == part.kind[..5] + part.kind[5..];
        }
      }
      name
  }

  /** The component reads a part's state as the raw string it carries, so
      the states are compared as these strings here; each is the wire tag
      of a `MessageParts.ToolState` (see `StateTagsMatch`). */
  const InputStreaming: string := "input-streaming"
  const InputAvailable: string := "input-available"
  const OutputAvailable: string := "output-available"
  const OutputError: string := "output-error"

  /** The state strings the component compares against are the wire tags of
      the four stages. */
  lemma StateTagsMatch()
    ensures InputStreaming == MessageParts.StateTag(MessageParts.InputStreaming)
    ensures InputAvailable == MessageParts.StateTag(MessageParts.InputAvailable)
    ensures OutputAvailable == MessageParts.StateTag(MessageParts.OutputAvailable)
    ensures OutputError == MessageParts.StateTag(MessageParts.OutputError)
  {
  }

  /** `getToolState`: a missing or empty state reads as "input-available";
      any other state is kept as it is. */
  function GetToolState(part: BasePart): (state: string)
    ensures state != ""
    ensures TruthyOpt(part.state) ==> state == part.state.value
    ensures !TruthyOpt(part.state) ==> state == InputAvailable
  {
    OrElse(part.state, InputAvailable)
  }

  /** The position of the first content item of type "text", if any. */
  function FindTextItem(items: seq<ContentItem>): (i: Option<nat>)
    ensures i.Some? ==> i.value < |items| && items[i.value].kind == "text"
    ensures forall j :: 0 <= j < |items| && (i.None? || j < i.value) ==> items[j].kind != "text"
  {
    if |items| == 0 then None
    else if items[0].kind == "text" then Some(0)
    else match FindTextItem(items[1..])
         case None => None
         case Some(j) => Some(j + 1)
  }

  /** The text to parse: that of the first text item, when truthy. */
  function WrappedText(output: ToolOutput): Option<string> {
    if output.Present? && output.content.Some? then
      match FindTextItem(output.content.value)
      case Some(i) =>
        var t := output.content.value[i].text;
        if TruthyOpt(t) then t else None
      case None => None
    else None
  }

  /** `parseMCPToolOutput`: nothing for a falsy output; the parse of the
      first text item's text when there is a non-empty one (nothing when it
      does not parse to an object); otherwise the output itself. `parse`
      stands for `JSON.parse` and answers `None` both on a syntax error and
      on a JSON `null`. */
  function ParseMcpToolOutput(output: ToolOutput, parse: string -> Option<ToolResult>): (r: Option<ToolResult>)
    ensures output.Falsy? ==> r.None?
    ensures WrappedText(output).Some? ==> r == parse(WrappedText(output).value)
    ensures output.Present? && WrappedText(output).None? ==> r == Some(output.asResult)
    ensures output.Present? && output.content.None? ==> r == Some(output.asResult)
  {
    match output
    case Falsy => None
    case Present(_, asResult) =>
      match WrappedText(output)
      case Some(t) => parse(t)
      case None => Some(asResult)
  }

  /** The two tools the component knows how to draw. */
  datatype KnownTool = IdentifySongTool | SongDetailsTool

  /** The progress affordance: whether arguments are still streaming, and the
      lyrics shown for `identify_song`. */
  datatype Progress = Progress(isStreaming: bool, lyrics: Option<string>)

  /** What is drawn for an output that has arrived. */
  datatype ResultView =
    | SongList(songs: seq<Song>, showOnlyTopMatch: bool)
    | DetailsCard(details: SongDetails)
    | ErrorBanner(message: string)
    | NoResult

  /** The three sibling branches of a known tool's fragment; `failure` holds
      the text shown after "Error: ". */
  datatype ToolView = ToolView(
    progress: Option<Progress>,
    result: Option<ResultView>,
    failure: Option<string>)

  datatype RenderedTool =
    | KnownToolView(tool: KnownTool, view: ToolView)
    | GenericTool(name: string, state: string)

  /** What a parsed output shows: the payload when `success` holds and the
      payload is there; else the business error when it is non-empty; else
      nothing. A song list shows only the top match exactly when it has one
      song. */
  function ResultFor(tool: KnownTool, res: ToolResult): (v: ResultView)
    ensures v.SongList? <==> tool == IdentifySongTool && res.success && res.songs.Some?
    ensures v.DetailsCard? <==> tool == SongDetailsTool && res.success && res.details.Some?
    ensures v.SongList? ==> v.songs == res.songs.value && (v.showOnlyTopMatch <==> |v.songs| == 1)
    ensures v.DetailsCard? ==> v.details == res.details.value
    ensures v.ErrorBanner? ==> res.error == Some(v.message) && v.message != ""
    ensures v.NoResult? <==> !v.SongList? && !v.DetailsCard? && !TruthyOpt(res.error)
  {
    match tool
    case IdentifySongTool =>
      if res.success && res.songs.Some? then SongList(res.songs.value, |res.songs.value| == 1)
      else if TruthyOpt(res.error) then ErrorBanner(res.error.value)
      else NoResult
    case SongDetailsTool =>
      if res.success && res.details.Some? then DetailsCard(res.details.value)
      else if TruthyOpt(res.error) then ErrorBanner(res.error.value)
      else NoResult
  }

  /** The branch selection of `renderToolPart` for a known tool. At most one
      branch is drawn: progress only while the call is pending and nothing
      has been parsed, the result only once output is available and parsed,
      and the call error only in the error state with an error text. */
  function ToolBranches(tool: KnownTool, state: string, parsed: Option<ToolResult>,
                        errorText: Option<string>, lyrics: Option<string>): (v: ToolView)
    ensures v.progress.Some? <==> (state == InputStreaming || state == InputAvailable) && parsed.None?
    ensures v.result.Some? <==> state == OutputAvailable && parsed.Some?
    ensures v.failure.Some? <==> state == OutputError && TruthyOpt(errorText)
    ensures (v.progress.Some? ==> v.result.None? && v.failure.None?)
         && (v.result.Some? ==> v.failure.None?)
    ensures v.progress.Some? ==> (v.progress.value.isStreaming <==> state == InputStreaming)
    ensures v.progress.Some? ==> v.progress.value.lyrics == (if tool == IdentifySongTool then lyrics else None)
    ensures v.result.Some? ==> v.result.value == ResultFor(tool, parsed.value)
    ensures v.failure.Some? ==> v.failure == errorText
  {
    ToolView(
      progress :=
        if (state == InputStreaming || state == InputAvailable) && parsed.None? then
          Some(Progress(state == InputStreaming, if tool == IdentifySongTool then lyrics else None))
        else None,
      result :=
        if state == OutputAvailable && parsed.Some? then Some(ResultFor(tool, parsed.value))
        else None,
      failure :=
        if state == OutputError && TruthyOpt(errorText) then errorText else None)
  }

  /** `renderToolPart`: the two known tools by name, anything else as a
      generic line with its name and state. */
  function RenderToolPart(part: BasePart, parse: string -> Option<ToolResult>): (r: RenderedTool)
    ensures GetToolName(part) == "identify_song" ==>
      r == KnownToolView(IdentifySongTool, ToolBranches(IdentifySongTool, GetToolState(part),
             ParseMcpToolOutput(part.output, parse), part.errorText, part.inputLyrics))
    ensures GetToolName(part) == "get_song_details" ==>
      r == KnownToolView(SongDetailsTool, ToolBranches(SongDetailsTool, GetToolState(part),
             ParseMcpToolOutput(part.output, parse), part.errorText, part.inputLyrics))
    ensures r.GenericTool? <==> GetToolName(part) !in {"identify_song", "get_song_details"}
    ensures r.GenericTool? ==> r.name == GetToolName(part) && r.state == GetToolState(part)
  {
    var name := GetToolName(part);
    var state := GetToolState(part);
    var parsed := ParseMcpToolOutput(part.output, parse);
    if name == "identify_song" then
      KnownToolView(IdentifySongTool, ToolBranches(IdentifySongTool, state, parsed, part.errorText, part.inputLyrics))
    else if name == "get_song_details" then
      KnownToolView(SongDetailsTool, ToolBranches(SongDetailsTool, state, parsed, part.errorText, part.inputLyrics))
    else GenericTool(name, state)
  }

  /** What one part of a message turns into. */
  datatype PartView = Nothing | TextBubble(text: string) | ToolPart(rendered: RenderedTool)

  /** The part dispatch: "step-start" parts are skipped, text parts are
      tried before tool parts, dynamic and "tool-..." parts go to the tool
      renderer, and anything else draws nothing. */
  function RenderPart(part: BasePart, parse: string -> Option<ToolResult>): (v: PartView)
    ensures v.TextBubble? <==> IsTextPart(part)
    ensures v.TextBubble? ==> v.text == part.text.value
    ensures v.ToolPart? <==> IsDynamicToolPart(part) || IsToolPart(part)
    ensures v.ToolPart? ==> v.rendered == RenderToolPart(part, parse)
    ensures part.kind == "step-start" ==> v == Nothing
  {
    if part.kind == "step-start" then
      assert part.kind[..5] == "step-";
      assert !IsToolPart(part);
      Nothing
    else if IsTextPart(part) then TextBubble(part.text.value)
    else if IsDynamicToolPart(part) || IsToolPart(part) then ToolPart(RenderToolPart(part, parse))
    else Nothing
  }

  /** `message.parts.map(...)`: one view per part, in order. */
  function RenderMessage(parts: seq<BasePart>, parse: string -> Option<ToolResult>): (views: seq<PartView>)
    ensures |views| == |parts|
    ensures forall k :: 0 <= k < |parts| ==> views[k] == RenderPart(parts[k], parse)
  {
    if |parts| == 0 then []
    else [RenderPart(parts[0], parse)] + RenderMessage(parts[1..], parse)
  }

  /** What `handleSubmit` does: the text sent as a single text part (if any)
      and the input box's contents afterwards. */
  datatype Submission = Submission(sent: Option<string>, inputAfter: string)

  /** `handleSubmit`: input that is empty after trimming is not sent and
      stays in the box; anything else is sent untrimmed and the box is
      cleared. */
  function HandleSubmit(input: string): (s: Submission)
    ensures s.sent.None? <==> Blank(input)
    ensures s.sent.None? ==> s.inputAfter == input
    ensures s.sent.Some? ==> s.sent.value == input && s.inputAfter == ""
  {
    TrimEmptyIffBlank(input);
    if Trim(input) == "" then Submission(None, input)
    else Submission(Some(input), "")
  }
}

=== FILE: end_to_end.dfy ===
/** How a tool's envelope reaches the screen: the tool registration wraps it,
    serialised, as the text of the single item of an MCP `content` array; the
    chat component parses that text back and picks what to draw. The
    serialiser is not modelled: a `parse` that gives back the envelope's
    fields for the wrapped text stands for a faithful JSON round trip. */
module EndToEnd {
  import opened Options
  import opened Genius
  import ServerTools
  import opened ChatInterface
  import SongResultsDisplay

  /** The fields the renderer reads off a serialised `identify_song` envelope. */
  function SearchView(r: SearchResult): ToolResult {
    ToolResult(r.success, r.songs, None, r.error)
  }

  /** The fields the renderer reads off a serialised `get_song_details` envelope. */
  function DetailsView(r: DetailsResult): ToolResult {
    ToolResult(r.success, None, r.details, r.error)
  }

  /** A registered tool's output: one text item holding the serialised
      envelope. */
  function McpOutput(json: string, wrapper: ToolResult): ToolOutput {
    Present(Some([ContentItem("text", Some(json))]), wrapper)
  }

  /** The part belongs to the tool `name`, as a static "tool-<name>" part or as
      a dynamic part naming it. */
  predicate PartOfTool(part: BasePart, name: string) {
    part.kind == "tool-" + name || (part.kind == "dynamic-tool" && part.toolName == Some(name))
  }

  lemma ToolPartName(part: BasePart, name: string)
    requires PartOfTool(part, name)
    requires name == "identify_song" || name == "get_song_details"
    ensures GetToolName(part) == name
    ensures !IsTextPart(part)
    ensures IsDynamicToolPart(part) || IsToolPart(part)
    ensures part.kind != "step-start"
  {
    if part.kind == "tool-" + name {
      assert part.kind[..5] == "tool-";
      assert !IsDynamicToolPart(part) by {
        assert part.kind[0] == 't';
        assert "dynamic-tool"[0] == 'd';
      }
      var n := GetToolName(part);
      assert part.kind == "tool-" + n;
      assert n == part.kind[5..] == name;
    }
  }

  lemma McpOutputUnwraps(json: string, wrapper: ToolResult, parse: string -> Option<ToolResult>)
    requires json != ""
    ensures ParseMcpToolOutput(McpOutput(json, wrapper), parse) == parse(json)
  {
    assert FindTextItem([ContentItem("text", Some(json))]) == Some(0);
  }

  /** A settled `identify_song` call is drawn as its envelope says: the song
      list (top match only when it holds one song) on success, the error
      text otherwise, and nothing else. */
  lemma SearchEnvelopeRendering(part: BasePart, r: SearchResult, json: string, wrapper: ToolResult,
                                parse: string -> Option<ToolResult>)
    requires WellFormedSearch(r)
    requires PartOfTool(part, "identify_song")
    requires part.state == Some(OutputAvailable)
    requires part.output == McpOutput(json, wrapper) && json != ""
    requires parse(json) == Some(SearchView(r))
    ensures RenderPart(part, parse) == ToolPart(KnownToolView(IdentifySongTool, ToolView(
      None,
      Some(if r.success then SongList(r.songs.value, |r.songs.value| == 1) else ErrorBanner(r.error.value)),
      None)))
  {
    ToolPartName(part, "identify_song");
    McpOutputUnwraps(json, wrapper, parse);
  }

  /** A settled `get_song_details` call is drawn as its envelope says: the
      detail card on success, the error text otherwise. */
  lemma DetailsEnvelopeRendering(part: BasePart, r: DetailsResult, json: string, wrapper: ToolResult,
                                 parse: string -> Option<ToolResult>)
    requires WellFormedDetails(r)
    requires PartOfTool(part, "get_song_details")
    requires part.state == Some(OutputAvailable)
    requires part.output == McpOutput(json, wrapper) && json != ""
    requires parse(json) == Some(DetailsView(r))
    ensures RenderPart(part, parse) == ToolPart(KnownToolView(SongDetailsTool, ToolView(
      None,
      Some(if r.success then DetailsCard(r.details.value) else ErrorBanner(r.error.value)),
      None)))
  {
    ToolPartName(part, "get_song_details");
    McpOutputUnwraps(json, wrapper, parse);
  }

  /** Asking for one match returns exactly the first hit; the component shows
      it alone under "Found your song!"; and its id, passed to
      `get_song_details`, brings back the details of that same song. */
  lemma SingleMatchFlow(lyrics: string, hits: seq<SearchHit>,
                        search: string -> ServerTools.AxiosOutcome<SearchResponse>,
                        fetch: int -> ServerTools.AxiosOutcome<RawSong>, song: RawSong)
    requires |hits| >= 1
    requires search(lyrics) == ServerTools.Response(SearchResponse(Some(hits)))
    requires hits[0].result.id != 0
    requires fetch(hits[0].result.id) == ServerTools.Response(song)
    requires song.id == hits[0].result.id
    ensures var r := ServerTools.IdentifySong(IdentifySongArgs(lyrics, Some(1.0)), search);
      && r.success && r.songs == Some([ToSong(hits[0])]) && r.count == Some(1)
      && ResultFor(IdentifySongTool, SearchView(r)) == SongList([ToSong(hits[0])], true)
    ensures var r := ServerTools.IdentifySong(IdentifySongArgs(lyrics, Some(1.0)), search);
      var shown := SongResultsDisplay.Display(r.songs, Some(true));
      && shown.Some?
      && shown.value.heading == "Found your song!"
      && |shown.value.cards| == 1
      && shown.value.cards[0].title == hits[0].result.title
    ensures var r := ServerTools.IdentifySong(IdentifySongArgs(lyrics, Some(1.0)), search);
      var d := ServerTools.GetSongDetails(SongDetailsArgs(NumberId(r.songs.value[0].id)), fetch);
      d.success && d.details.value.id == hits[0].result.id
  {
    var args := IdentifySongArgs(lyrics, Some(1.0));
    ServerTools.IdentifySongWithinSchema(args, search);
    var r := ServerTools.IdentifySong(args, search);
    assert hits[..1] == [hits[0]];
    assert r.songs.value == [ToSong(hits[0])];
  }
}

=== FILE: genius.dfy ===
/** The records the Genius API returns, the records the two tools return, the
    `{success, ...payload, error?}` envelopes that carry them, and the pieces
    both copies of the tools share verbatim: the error wording, the status
    tables, the `slice(0, Math.min(limit, 5))` truncation and the field
    shaping. */
module Genius {
  import opened Options
  import opened JsStrings

  // ---------------------------------------------------------------------
  // Upstream records (GET /search and GET /songs/:id)

  datatype ArtistRef = ArtistRef(name: string)

  datatype HitResult = HitResult(
    id: int,
    title: string,
    primaryArtist: ArtistRef,
    url: string,
    songArtImageUrl: Option<string>)

  datatype SearchHit = SearchHit(result: HitResult)

  /** `response.hits`, which the tools treat as possibly missing. */
  datatype SearchResponse = SearchResponse(hits: Option<seq<SearchHit>>)

  datatype RawAlbum = RawAlbum(name: string, url: string, coverArtUrl: string)

  datatype RawArtist = RawArtist(name: string, url: string)

  datatype RawDescription = RawDescription(plain: Option<string>)

  /** `response.song`; `album` is `null` for songs without an album. */
  datatype RawSong = RawSong(
    id: int,
    title: string,
    url: string,
    releaseDateForDisplay: string,
    songArtImageUrl: string,
    headerImageUrl: string,
    album: Option<RawAlbum>,
    primaryArtist: RawArtist,
    featuredArtists: seq<ArtistRef>,
    producerArtists: seq<ArtistRef>,
    writerArtists: seq<ArtistRef>,
    description: Option<RawDescription>,
    appleMusicPlayerUrl: Option<string>,
    spotifyUri: Option<string>,
    youtubeUrl: Option<string>)

  // ---------------------------------------------------------------------
  // Tool results

  /** One search match, flattened. */
  datatype Song = Song(
    id: int,
    title: string,
    primaryArtist: string,
    url: string,
    albumArtUrl: Option<string>)

  datatype Album = Album(name: string, url: string, coverArtUrl: string)

  datatype Artist = Artist(name: string, url: string)

  datatype SongDetails = SongDetails(
    id: int,
    title: string,
    url: string,
    releaseDate: string,
    album: Option<Album>,
    primaryArtist: Artist,
    featuredArtists: seq<string>,
    producers: seq<string>,
    writers: seq<string>,
    description: Option<string>,
    songArtUrl: string,
    headerImageUrl: string,
    appleMusicUrl: Option<string>,
    spotifyUri: Option<string>,
    youtubeUrl: Option<string>)

  /** The envelope `identify_song` returns. */
  datatype SearchResult = SearchResult(
    success: bool,
    count: Option<int>,
    songs: Option<seq<Song>>,
    error: Option<string>)

  /** The envelope `get_song_details` returns. */
  datatype DetailsResult = DetailsResult(
    success: bool,
    details: Option<SongDetails>,
    error: Option<string>)

  function SearchFailure(message: string): SearchResult {
    SearchResult(false, None, None, Some(message))
  }

  function DetailsFailure(message: string): DetailsResult {
    DetailsResult(false, None, Some(message))
  }

  /** The envelope invariant: exactly one of payload and error, `success`
      exactly when the payload is there, `count` the number of songs, and a
      non-empty error text. */
  predicate WellFormedSearch(r: SearchResult) {
    && (r.success <==> r.songs.Some?)
    && (r.songs.Some? <==> r.error.None?)
    && (r.songs.Some? ==> r.count == Some(|r.songs.value|))
    && (r.error.Some? ==> r.error.value != "")
  }

  predicate WellFormedDetails(r: DetailsResult) {
    && (r.success <==> r.details.Some?)
    && (r.details.Some? <==> r.error.None?)
    && (r.error.Some? ==> r.error.value != "")
  }

  // ---------------------------------------------------------------------
  // Error wording

  /** Every way a tool call can end in `success: false`. */
  datatype ErrorKind =
    | MissingToken
    | InvalidSongId
    | NoResults
    | AuthInvalid
    | NotFound
    | RateLimited
    | Upstream(text: string)
    | TimedOut
    | SearchFailed
    | DetailsFailed

  const UpstreamPrefix: string := "Genius API error: "

  /** The text each kind of failure is reported with: an upstream failure
      is marked by `UpstreamPrefix` and carries the upstream text after it;
      no other text starts with that prefix. */
  function Message(k: ErrorKind): (m: string)
    ensures m != ""
    ensures StartsWith(m, UpstreamPrefix) <==> k.Upstream?
    ensures k.Upstream? ==> m[|UpstreamPrefix|..] == k.text
  {
    if k.Upstream? then UpstreamPrefix + k.text else FixedMessage(k)
  }

  /** The wording is unambiguous: the error text of an envelope determines
      which failure produced it. */
  lemma MessageInjective(k1: ErrorKind, k2: ErrorKind)
    requires Message(k1) == Message(k2)
    ensures k1 == k2
  {
    if k1.Upstream? && k2.Upstream? {
      assert k1.text == Message(k1)[|UpstreamPrefix|..];
    }
  }

  /** The fixed texts, one per failure that carries no upstream text (the
      longer ones are written as two literals so that their characters are
      visible to the verifier). No two have the same length, and none
      starts with the "G" of the upstream prefix. */
  function FixedMessage(k: ErrorKind): (m: string)
    requires !k.Upstream?
    ensures |m| == FixedMessageLength(k)
    ensures m[0] != 'G'
  {
    match k
    case MissingToken =>
      var m := "Server configuration error: " + "Genius API token not found"; assert m[0] == 'S'; m
    case InvalidSongId =>
      var m := "Song ID is required. " + "Use the id from identify_song results."; assert m[0] == 'S'; m
    case NoResults =>
      var m := "No songs found matching those lyrics. " + "Try different or more specific lyrics.";
      assert m[0] == 'N'; m
    case AuthInvalid => var m := "Invalid Genius API token"; assert m[0] == 'I'; m
    case NotFound => var m := "Song not found"; assert m[0] == 'S'; m
    case RateLimited => var m := "Rate limit exceeded"; assert m[0] == 'R'; m
    case TimedOut => var m := "Request timed out. Please try again."; assert m[0] == 'R'; m
    case SearchFailed =>
      var m := "An unexpected error occurred " + "while searching for the song"; assert m[0] == 'A'; m
    case DetailsFailed =>
      var m := "An unexpected error occurred " + "while fetching song details"; assert m[0] == 'A'; m
  }

  /** The length of each fixed text. */
  function FixedMessageLength(k: ErrorKind): nat
    requires !k.Upstream?
  {
    match k
    case MissingToken => 54
    case InvalidSongId => 59
    case NoResults => 76
    case AuthInvalid => 24
    case NotFound => 14
    case RateLimited => 19
    case TimedOut => 36
    case SearchFailed => 57
    case DetailsFailed => 56
  }


  /** Status table of `identify_song` (both copies): 401, then 429, then the
      upstream text. */
  function SearchStatusError(status: Option<int>, text: string): (k: ErrorKind)
    ensures k == AuthInvalid <==> status == Some(401)
    ensures k == RateLimited <==> status == Some(429)
    ensures k.Upstream? <==> status !in {Some(401), Some(429)}
    ensures k.Upstream? ==> k.text == text
  {
    if status == Some(401) then AuthInvalid
    else if status == Some(429) then RateLimited
    else Upstream(text)
  }

  /** Status table of `get_song_details` (both copies): 401, then 404, then
      429, then the upstream text. */
  function DetailsStatusError(status: Option<int>, text: string): (k: ErrorKind)
    ensures k == AuthInvalid <==> status == Some(401)
    ensures k == NotFound <==> status == Some(404)
    ensures k == RateLimited <==> status == Some(429)
    ensures k.Upstream? <==> status !in {Some(401), Some(404), Some(429)}
    ensures k.Upstream? ==> k.text == text
  {
    if status == Some(401) then AuthInvalid
    else if status == Some(404) then NotFound
    else if status == Some(429) then RateLimited
    else Upstream(text)
  }

  // ---------------------------------------------------------------------
  // Arguments

  /** The arguments of `identify_song`. `limit` is a JavaScript number: the
      server's input schema bounds it to 1..5 but does not require an
      integer. */
  datatype IdentifySongArgs = IdentifySongArgs(lyrics: string, limit: Option<real>)

  /** The limit in force: the one given, or 3 when it is omitted. */
  function LimitOrDefault(limit: Option<real>): (l: real)
    ensures limit.None? ==> l == 3.0
    ensures limit.Some? ==> l == limit.value
  {
    limit.GetOr(3.0)
  }

  /** The JavaScript value passed as `song_id`. */
  datatype SongIdArg =
    | Absent
    | NumberId(value: int)
    | NaNId
    | NonNumber

  /** `!song_id || typeof song_id !== 'number'` rejects; otherwise the id
      the song is requested by. */
  function ValidSongId(arg: SongIdArg): (id: Option<int>)
    ensures id.Some? <==> arg.NumberId? && arg.value != 0
    ensures id.Some? ==> id.value == arg.value
  {
    match arg
    case NumberId(v) => if v == 0 then None else Some(v)
    case _ => None
  }

  datatype SongDetailsArgs = SongDetailsArgs(songId: SongIdArg)

  // ---------------------------------------------------------------------
  // Truncation: hits.slice(0, Math.min(limit, 5))

  function Min(a: int, b: int): int {
    if a <= b then a else b
  }

  function MinReal(a: real, b: real): real {
    if a <= b then a else b
  }

  /** JavaScript's conversion of a finite number to an integer index: the
      fraction is dropped, rounding toward zero. */
  function TruncateTowardZero(x: real): (t: int)
    ensures 0.0 <= x ==> t as real <= x < t as real + 1.0
    ensures x < 0.0 ==> t as real - 1.0 < x <= t as real
  {
    if x >= 0.0 then x.Floor else -((-x).Floor)
  }

  /** Where `xs.slice(0, end)` stops: the end is truncated toward zero, a
      negative end counts from the back, and the result is clamped to
      `[0, n]`. */
  function SliceEnd(n: nat, end: real): (k: nat)
    ensures k <= n
    ensures 0.0 <= end ==> k == Min(end.Floor, n)
    ensures -1.0 < end < 0.0 ==> k == 0
    ensures end <= -1.0 ==> k == (if n + TruncateTowardZero(end) < 0 then 0 else n + TruncateTowardZero(end))
  {
    var e := TruncateTowardZero(end);
    if e < 0 then (if n + e < 0 then 0 else n + e)
    else Min(e, n)
  }

  /** The hits a tool keeps for a given `limit`: a prefix, in upstream order,
      of at most five hits and at most `limit` of them. */
  function LimitHits(hits: seq<SearchHit>, limit: real): (kept: seq<SearchHit>)
    ensures |kept| <= |hits|
    ensures kept == hits[..|kept|]
    ensures 1.0 <= limit ==> |kept| == Min(Min(limit.Floor, 5), |hits|)
  {
    hits[..SliceEnd(|hits|, MinReal(limit, 5.0))]
  }

  // ---------------------------------------------------------------------
  // Shaping

  /** The summary of one hit: the nested artist becomes its name and the song
      art becomes the album art. */
  function ToSong(hit: SearchHit): Song {
    Song(hit.result.id, hit.result.title, hit.result.primaryArtist.name,
         hit.result.url, hit.result.songArtImageUrl)
  }

  /** The hit a summary was flattened from. */
  function HitOf(song: Song): SearchHit {
    SearchHit(HitResult(song.id, song.title, ArtistRef(song.primaryArtist),
                        song.url, song.albumArtUrl))
  }

  /** Flattening a hit loses nothing: it only renames and un-nests. */
  lemma ToSongBijective(hit: SearchHit, song: Song)
    ensures HitOf(ToSong(hit)) == hit
    ensures ToSong(HitOf(song)) == song
  {
  }

  /** Every hit flattened to a summary, in upstream order. */
  function ToSongs(hits: seq<SearchHit>): (songs: seq<Song>)
    ensures |songs| == |hits|
    ensures forall k :: 0 <= k < |hits| ==> songs[k] == ToSong(hits[k])
  {
    if |hits| == 0 then []
    else [ToSong(hits[0])] + ToSongs(hits[1..])
  }

  /** The names of a list of artists, in order. */
  function Names(artists: seq<ArtistRef>): (names: seq<string>)
    ensures |names| == |artists|
    ensures forall k :: 0 <= k < |artists| ==> names[k] == artists[k].name
  {
    if |artists| == 0 then []
    else [artists[0].name] + Names(artists[1..])
  }

  /** The detail record of a raw song, as both copies of `get_song_details`
      build it. */
  function ShapeDetails(song: RawSong): (d: SongDetails)
    ensures d.id == song.id && d.title == song.title && d.url == song.url
    ensures d.releaseDate == song.releaseDateForDisplay
    ensures d.album.None? <==> song.album.None?
    ensures song.album.Some? ==> d.album == Some(Album(song.album.value.name, song.album.value.url,
                                                       song.album.value.coverArtUrl))
    ensures d.primaryArtist == Artist(song.primaryArtist.name, song.primaryArtist.url)
    ensures |d.featuredArtists| == |song.featuredArtists|
    ensures forall k :: 0 <= k < |song.featuredArtists| ==> d.featuredArtists[k] == song.featuredArtists[k].name
    ensures |d.producers| == |song.producerArtists|
    ensures forall k :: 0 <= k < |song.producerArtists| ==> d.producers[k] == song.producerArtists[k].name
    ensures |d.writers| == |song.writerArtists|
    ensures forall k :: 0 <= k < |song.writerArtists| ==> d.writers[k] == song.writerArtists[k].name
    ensures song.description.None? ==> d.description.None?
    ensures song.description.Some? ==> d.description == song.description.value.plain
    ensures d.songArtUrl == song.songArtImageUrl && d.headerImageUrl == song.headerImageUrl
    ensures d.appleMusicUrl == song.appleMusicPlayerUrl
    ensures d.spotifyUri == song.spotifyUri && d.youtubeUrl == song.youtubeUrl
  {
    SongDetails(
      id := song.id,
      title := song.title,
      url := song.url,
      releaseDate := song.releaseDateForDisplay,
      album := match song.album
               case None => None
               case Some(a) => Some(Album(a.name, a.url, a.coverArtUrl)),
      primaryArtist := Artist(song.primaryArtist.name, song.primaryArtist.url),
      featuredArtists := Names(song.featuredArtists),
      producers := Names(song.producerArtists),
      writers := Names(song.writerArtists),
      description := match song.description
                     case None => None
                     case Some(desc) => desc.plain,
      songArtUrl := song.songArtImageUrl,
      headerImageUrl := song.headerImageUrl,
      appleMusicUrl := song.appleMusicPlayerUrl,
      spotifyUri := song.spotifyUri,
      youtubeUrl := song.youtubeUrl)
  }

  function Refs(names: seq<string>): (refs: seq<ArtistRef>)
    ensures |refs| == |names|
    ensures forall k :: 0 <= k < |names| ==> refs[k] == ArtistRef(names[k])
  {
    if |names| == 0 then []
    else [ArtistRef(names[0])] + Refs(names[1..])
  }

  /** The raw song a detail record was shaped from, reading an absent
      description as a description without plain text. */
  function RawOf(d: SongDetails): RawSong {
    RawSong(
      id := d.id,
      title := d.title,
      url := d.url,
      releaseDateForDisplay := d.releaseDate,
      songArtImageUrl := d.songArtUrl,
      headerImageUrl := d.headerImageUrl,
      album := match d.album
               case None => None
               case Some(a) => Some(RawAlbum(a.name, a.url, a.coverArtUrl)),
      primaryArtist := RawArtist(d.primaryArtist.name, d.primaryArtist.url),
      featuredArtists := Refs(d.featuredArtists),
      producerArtists := Refs(d.producers),
      writerArtists := Refs(d.writers),
      description := Some(RawDescription(d.description)),
      appleMusicPlayerUrl := d.appleMusicUrl,
      spotifyUri := d.spotifyUri,
      youtubeUrl := d.youtubeUrl)
  }

  /** Shaping only renames, un-nests and projects names: every detail record
      is the shape of exactly one raw song that has a description object, so
      the only information dropped is whether `description` itself was
      missing. */
  lemma ShapeDetailsRoundTrip(song: RawSong, d: SongDetails)
    ensures ShapeDetails(RawOf(d)) == d
    ensures song.description.Some? ==> RawOf(ShapeDetails(song)) == song
  {
    var d' := ShapeDetails(RawOf(d));
    assert d'.featuredArtists == d.featuredArtists;
    assert d'.producers == d.producers;
    assert d'.writers == d.writers;
    var s := ShapeDetails(song);
    assert Refs(s.featuredArtists) == song.featuredArtists;
    assert Refs(s.producers) == song.producerArtists;
    assert Refs(s.writers) == song.writerArtists;
  }
}

=== FILE: js_strings.dfy ===
/** The JavaScript string operations the tools and components rely on, stated
    over `string` (a `seq<char>` of Unicode scalar values; no operation
    here depends on JavaScript's UTF-16 code units): truthiness, prefix and
    suffix tests, `indexOf`, `replace` with a string pattern, `split` on one
    character, `join`, `trim`, and the decimal rendering of a count. */
module JsStrings {
  import opened Options

  /** A string is truthy in JavaScript exactly when it is non-empty. */
  predicate Truthy(s: string) {
    s != ""
  }

  /** An optional string is truthy when it is present and non-empty. */
  predicate TruthyOpt(s: Option<string>) {
    s.Some? && s.value != ""
  }

  /** `s || fallback` for an optional string. */
  function OrElse(s: Option<string>, fallback: string): (r: string)
    ensures TruthyOpt(s) ==> r == s.value
    ensures !TruthyOpt(s) ==> r == fallback
  {
    if s.Some? && s.value != "" then s.value else fallback
  }

  /** `p` is a prefix of `s`. */
  predicate StartsWith(s: string, p: string) {
    |p| <= |s| && s[..|p|] == p
  }

  /** `p` is a suffix of `s`. */
  predicate EndsWith(s: string, p: string) {
    |p| <= |s| && s[|s| - |p|..] == p
  }

  /** `pat` occurs in `s` starting at index `i`. */
  predicate OccursAt(s: string, pat: string, i: nat) {
    i + |pat| <= |s| && s[i..i + |pat|] == pat
  }

  /** `s.indexOf(pat, from)`, with `None` for JavaScript's -1. */
  function IndexOfFrom(s: string, pat: string, from: nat): (r: Option<nat>)
    requires from <= |s| + 1
    ensures r.Some? ==> from <= r.value && OccursAt(s, pat, r.value)
    ensures forall i: nat :: from <= i && (r.None? || i < r.value) ==> !OccursAt(s, pat, i)
    decreases |s| + 1 - from
  {
    if from + |pat| > |s| then None
    else if s[from..from + |pat|] == pat then Some(from)
    else IndexOfFrom(s, pat, from + 1)
  }

  /** `s.indexOf(pat)`: the first occurrence of `pat` in `s`. */
  function IndexOf(s: string, pat: string): (r: Option<nat>)
    ensures r.Some? ==> OccursAt(s, pat, r.value)
    ensures forall i: nat :: (r.None? || i < r.value) ==> !OccursAt(s, pat, i)
  {
    IndexOfFrom(s, pat, 0)
  }

  /** `s.replace(pat, rep)` with a string pattern: only the FIRST occurrence is
      replaced, wherever it is; without an occurrence `s` is returned. */
  function ReplaceFirst(s: string, pat: string, rep: string): (r: string)
    ensures IndexOf(s, pat).None? ==> r == s
    ensures IndexOf(s, pat).Some? ==>
      var i := IndexOf(s, pat).value;
      r == s[..i] + rep + s[i + |pat|..]
  {
    match IndexOf(s, pat)
    case None => s
    case Some(i) => s[..i] + rep + s[i + |pat|..]
  }

  /** Removing a prefix with `replace` removes exactly that prefix. */
  lemma ReplacePrefix(s: string, p: string)
    requires StartsWith(s, p)
    ensures ReplaceFirst(s, p, "") == s[|p|..]
  {
    assert OccursAt(s, p, 0);
    assert IndexOf(s, p) == Some(0);
  }

  /** `parts.join(sep)`; the empty list joins to "". */
  function Join(parts: seq<string>, sep: string): string
  {
    if |parts| == 0 then ""
    else if |parts| == 1 then parts[0]
    else parts[0] + sep + Join(parts[1..], sep)
  }

  /** `s.split(sep)` for a one-character separator: the maximal pieces
      between separators, empty ones included, at least one piece. */
  function Split(s: string, sep: char): (parts: seq<string>)
    ensures |parts| >= 1
    ensures forall k :: 0 <= k < |parts| ==> sep !in parts[k]
    ensures Join(parts, [sep]) == s
    decreases |s|
  {
    match IndexOf(s, [sep])
    case None =>
      assert forall j :: 0 <= j < |s| ==> s[j] != sep by {
        forall j | 0 <= j < |s| ensures s[j] != sep {
          assert !OccursAt(s, [sep], j);
          assert s[j..j + 1] == [s[j]];
        }
      }
      [s]
    case Some(i) =>
      assert s[i..i + 1] == [sep];
      assert sep !in s[..i] by {
        forall j | 0 <= j < i ensures s[..i][j] != sep {
          assert !OccursAt(s, [sep], j);
          assert s[j..j + 1] == [s[j]];
        }
      }
      var rest := Split(s[i + 1..], sep);
      assert ([s[..i]] + rest)[1..] == rest;
      assert s == s[..i] + [sep] + s[i + 1..];
      [s[..i]] + rest
  }

  /** `split` is the inverse of `join`: any list of separator-free pieces is
      recovered from its join. */
  lemma {:induction false} SplitJoin(parts: seq<string>, sep: char)
    requires |parts| >= 1
    requires forall k :: 0 <= k < |parts| ==> sep !in parts[k]
    ensures Split(Join(parts, [sep]), sep) == parts
    decreases |parts|
  {
    var s := Join(parts, [sep]);
    var p0 := parts[0];
    if |parts| == 1 {
      assert s == p0;
      forall j: nat | j < |s| ensures !OccursAt(s, [sep], j) {
        assert s[j..j + 1] == [s[j]];
      }
      assert IndexOf(s, [sep]).None?;
    } else {
      var rest := parts[1..];
      assert s == p0 + [sep] + Join(rest, [sep]);
      assert OccursAt(s, [sep], |p0|) by {
        assert s[|p0|..|p0| + 1] == [sep];
      }
      forall j: nat | j < |p0| ensures !OccursAt(s, [sep], j) {
        assert s[j] == p0[j];
        assert s[j..j + 1] == [s[j]];
      }
      assert IndexOf(s, [sep]) == Some(|p0|);
      assert s[..|p0|] == p0;
      assert s[|p0| + 1..] == Join(rest, [sep]);
      SplitJoin(rest, sep);
      assert [p0] + rest == parts;
    }
  }

  /** The characters `String.prototype.trim` removes: ECMAScript WhiteSpace
      and LineTerminator code points. */
  const JsWhitespace: set<char> := {
    '\t', '\n', '\U{000B}', '\U{000C}', '\r', ' ', '\U{00A0}', '\U{1680}',
    '\U{2000}', '\U{2001}', '\U{2002}', '\U{2003}', '\U{2004}', '\U{2005}',
    '\U{2006}', '\U{2007}', '\U{2008}', '\U{2009}', '\U{200A}',
    '\U{2028}', '\U{2029}', '\U{202F}', '\U{205F}', '\U{3000}', '\U{FEFF}'
  }

  predicate Blank(s: string) {
    forall k :: 0 <= k < |s| ==> s[k] in JsWhitespace
  }

  function TrimStart(s: string): string
    decreases |s|
  {
    if |s| > 0 && s[0] in JsWhitespace then TrimStart(s[1..]) else s
  }

  function TrimEnd(s: string): string
    decreases |s|
  {
    if |s| > 0 && s[|s| - 1] in JsWhitespace then TrimEnd(s[..|s| - 1]) else s
  }

  /** `s.trim()`: the longest infix of `s` that neither starts nor ends with
      whitespace, or "" when `s` is all whitespace. */
  function Trim(s: string): (r: string)
  {
    TrimEnd(TrimStart(s))
  }

  lemma {:induction false} TrimStartBlank(s: string)
    ensures TrimStart(s) == "" <==> Blank(s)
    ensures TrimStart(s) != "" ==> TrimStart(s)[0] !in JsWhitespace
    decreases |s|
  {
    if |s| > 0 && s[0] in JsWhitespace {
      TrimStartBlank(s[1..]);
      assert Blank(s) <==> Blank(s[1..]) by {
        if Blank(s[1..]) {
          forall k | 0 <= k < |s| ensures s[k] in JsWhitespace {
            if k > 0 { assert s[k] == s[1..][k - 1]; }
          }
        }
        if Blank(s) {
          forall k | 0 <= k < |s[1..]| ensures s[1..][k] in JsWhitespace {
            assert s[1..][k] == s[k + 1];
          }
        }
      }
    } else if |s| > 0 {
      assert !Blank(s);
    }
  }

  lemma {:induction false} TrimEndEmpty(s: string)
    requires s == "" || s[0] !in JsWhitespace
    ensures TrimEnd(s) == "" <==> s == ""
    decreases |s|
  {
    if |s| > 0 && s[|s| - 1] in JsWhitespace {
      assert |s| > 1;
      TrimEndEmpty(s[..|s| - 1]);
    }
  }

  /** `s.trim()` is empty exactly when every character of `s` is whitespace. */
  lemma TrimEmptyIffBlank(s: string)
    ensures Trim(s) == "" <==> Blank(s)
  {
    TrimStartBlank(s);
    TrimEndEmpty(TrimStart(s));
  }

  function DigitChar(d: nat): (c: char)
    requires d < 10
  {
    (('0' as int) + d) as char
  }

  /** The decimal digits JavaScript's template literals produce for a
      non-negative integer. */
  function NatToDecimal(n: nat): (r: string)
    ensures |r| >= 1
    ensures forall k :: 0 <= k < |r| ==> '0' <= r[k] <= '9'
    ensures |r| > 1 ==> r[0] != '0'
    decreases n
  {
    if n < 10 then [DigitChar(n)] else NatToDecimal(n / 10) + [DigitChar(n % 10)]
  }

  /** Reads a string of decimal digits back as a number. */
  function DecimalValue(s: string): nat
    requires forall k :: 0 <= k < |s| ==> '0' <= s[k] <= '9'
    decreases |s|
  {
    if |s| == 0 then 0
    else DecimalValue(s[..|s| - 1]) * 10 + ((s[|s| - 1] as int) - ('0' as int))
  }

  /** The decimal rendering denotes the number it renders. */
  lemma {:induction false} DecimalRoundTrip(n: nat)
    ensures DecimalValue(NatToDecimal(n)) == n
    decreases n
  {
    var r := NatToDecimal(n);
    if n >= 10 {
      DecimalRoundTrip(n / 10);
      assert r[..|r| - 1] == NatToDecimal(n / 10);
      assert (r[|r| - 1] as int) - ('0' as int) == n % 10;
      assert DecimalValue(r) == (n / 10) * 10 + n % 10;
    } else {
      assert r[..0] == [];
    }
  }
}

=== FILE: message_parts.dfy ===
/** The shared UI types: message parts as a tagged union, the type guards
    that recognise them in an untyped value, and the conversion of a Spotify
    URI into an open.spotify.com link. */
module MessageParts {
  import opened Options
  import opened JsStrings
  import opened Genius

  /** The four stages of a tool call, as the `ToolState` union names them. */
  datatype ToolState = InputStreaming | InputAvailable | OutputAvailable | OutputError

  /** The string a part carries on the wire for each stage. The input stages
      are exactly those whose tag starts with "i", and the tag's seventh
      character tells the two stages of each kind apart. */
  function StateTag(s: ToolState): (t: string)
    ensures |t| >= 12
    ensures t[0] == 'i' <==> s.InputStreaming? || s.InputAvailable?
    ensures t[0] == 'i' ==> (t[6] == 's' <==> s.InputStreaming?)
    ensures t[0] != 'i' ==> (t[7] == 'a' <==> s.OutputAvailable?)
  {
    match s
    case InputStreaming => var t := "input-streaming"; assert t[0] == 'i' && t[6] == 's'; t
    case InputAvailable => var t := "input-available"; assert t[0] == 'i' && t[6] == 'a'; t
    case OutputAvailable => var t := "output-available"; assert t[0] == 'o' && t[7] == 'a'; t
    case OutputError => var t := "output-error"; assert t[0] == 'o' && t[7] == 'e'; t
  }

  /** Distinct stages carry distinct tags. */
  lemma StateTagInjective(s: ToolState, s': ToolState)
    ensures StateTag(s) == StateTag(s') <==> s == s'
  {
  }

  datatype IdentifySongInput = IdentifySongInput(lyrics: string, limit: Option<real>)

  datatype GetSongDetailsInput = GetSongDetailsInput(songId: int)

  datatype MessagePart =
    | TextPart(text: string)
    | IdentifySongToolPart(
        toolCallId: string,
        state: ToolState,
        identifyInput: Option<IdentifySongInput>,
        identifyOutput: Option<SearchResult>,
        errorText: Option<string>)
    | GetSongDetailsToolPart(
        toolCallId: string,
        state: ToolState,
        detailsInput: Option<GetSongDetailsInput>,
        detailsOutput: Option<DetailsResult>,
        errorText: Option<string>)

  /** The `type` tag each kind of part carries. */
  function TypeTag(p: MessagePart): string {
    match p
    case TextPart(_) => "text"
    case IdentifySongToolPart(_, _, _, _, _) => "tool-identify_song"
    case GetSongDetailsToolPart(_, _, _, _, _) => "tool-get_song_details"
  }

  /** An untyped JavaScript value as the guards see it: `null`, something
      that is not an object, or an object whose `type` property is a string
      (`Some`) or anything else (`None`). */
  datatype Unknown = Null | NonObject | Object(typeField: Option<string>)

  /** The value a part is at run time. */
  function AsUnknown(p: MessagePart): Unknown {
    Object(Some(TypeTag(p)))
  }

  predicate HasType(v: Unknown, tag: string) {
    v.Object? && v.typeField == Some(tag)
  }

  predicate IsTextPart(v: Unknown) {
    HasType(v, "text")
  }

  predicate IsIdentifySongPart(v: Unknown) {
    HasType(v, "tool-identify_song")
  }

  predicate IsGetSongDetailsPart(v: Unknown) {
    HasType(v, "tool-get_song_details")
  }

  /** The guards never overlap, and on a part each one recognises exactly its
      own kind. */
  lemma GuardsClassifyParts(v: Unknown, p: MessagePart)
    ensures !(IsTextPart(v) && IsIdentifySongPart(v))
    ensures !(IsTextPart(v) && IsGetSongDetailsPart(v))
    ensures !(IsIdentifySongPart(v) && IsGetSongDetailsPart(v))
    ensures IsTextPart(AsUnknown(p)) <==> p.TextPart?
    ensures IsIdentifySongPart(AsUnknown(p)) <==> p.IdentifySongToolPart?
    ensures IsGetSongDetailsPart(AsUnknown(p)) <==> p.GetSongDetailsToolPart?
    ensures v.Null? || v.NonObject? ==> !IsTextPart(v) && !IsIdentifySongPart(v) && !IsGetSongDetailsPart(v)
  {
  }

  const SpotifyLinkBase: string := "https://open.spotify.com/"

  /** `spotifyUriToUrl`: "spotify:<type>:<id>" becomes
      "https://open.spotify.com/<type>/<id>"; anything else, an absent or
      empty URI included, has no link. */
  function SpotifyUriToUrl(uri: Option<string>): (url: Option<string>)
    ensures !TruthyOpt(uri) ==> url.None?
    ensures TruthyOpt(uri) ==>
      var parts := Split(uri.value, ':');
      && (url.Some? <==> |parts| == 3 && parts[0] == "spotify")
      && (url.Some? ==> url.value == SpotifyLinkBase + parts[1] + "/" + parts[2])
  {
    if !TruthyOpt(uri) then None
    else
      var parts := Split(uri.value, ':');
      if |parts| == 3 && parts[0] == "spotify" then
        Some(SpotifyLinkBase + parts[1] + "/" + parts[2])
      else None
  }

  /** `uri` is "spotify:" + `kind` + ":" + `id` with colon-free pieces. */
  predicate SpotifyShaped(uri: string, kind: string, id: string) {
    ':' !in kind && ':' !in id && uri == "spotify:" + kind + ":" + id
  }

  /** A well-formed URI converts to the link for its type and id. */
  lemma SpotifyUriOfParts(kind: string, id: string)
    requires ':' !in kind && ':' !in id
    ensures SpotifyUriToUrl(Some("spotify:" + kind + ":" + id)) == Some(SpotifyLinkBase + kind + "/" + id)
  {
    var uri := "spotify:" + kind + ":" + id;
    var parts := ["spotify", kind, id];
    assert Join(parts, [':']) == uri by {
      assert Join(parts[1..], [':']) == kind + [':'] + id by {
        assert parts[1..][1..] == [id];
      }
    }
    SplitJoin(parts, ':');
  }

  /** The conversion succeeds exactly on well-formed URIs: a link comes out
      if and only if the URI is "spotify:<type>:<id>" with colon-free type
      and id, and then it is the link for that type and id. */
  lemma SpotifyUriCharacterised(uri: string, url: string)
    ensures SpotifyUriToUrl(Some(uri)) == Some(url) <==>
      exists kind, id :: SpotifyShaped(uri, kind, id) && url == SpotifyLinkBase + kind + "/" + id
  {
    if SpotifyUriToUrl(Some(uri)) == Some(url) {
      var parts := Split(uri, ':');
      assert Join(parts, [':']) == uri;
      assert parts[1..][1..] == [parts[2]];
      assert Join(parts[1..], [':']) == parts[1] + [':'] + parts[2];
      assert SpotifyShaped(uri, parts[1], parts[2]);
    }
    if exists kind, id :: SpotifyShaped(uri, kind, id) && url == SpotifyLinkBase + kind + "/" + id {
      var kind, id :| SpotifyShaped(uri, kind, id) && url == SpotifyLinkBase + kind + "/" + id;
      SpotifyUriOfParts(kind, id);
    }
  }

  /** A URI with a wrong number of segments, or a scheme other than
      "spotify", has no link. */
  lemma MalformedSpotifyUris()
    ensures SpotifyUriToUrl(Some("spotify:track")).None?
    ensures SpotifyUriToUrl(Some("spotify:a:b:c")).None?
    ensures SpotifyUriToUrl(Some("apple:a:b")).None?
  {
    SplitJoin(["spotify", "track"], ':');
    assert Join(["spotify", "track"], [':']) == "spotify:track";
    var p := ["spotify", "a", "b", "c"];
    assert p[1..][1..][1..] == ["c"];
    assert p[1..][1..] == ["b", "c"];
    assert Join(p, [':']) == "spotify:a:b:c";
    SplitJoin(p, ':');
    var q := ["apple", "a", "b"];
    assert q[1..][1..] == ["b"];
    assert Join(q, [':']) == "apple:a:b";
    SplitJoin(q, ':');
  }
}

=== FILE: options.dfy ===
/** The optional value used throughout the model for TypeScript's `T | undefined`
    (and, where the source says so, `T | null`). */
module Options {

  datatype Option<+T> = None | Some(value: T) {

    /** `this ?? default`: the carried value, or the default when absent. */
    function GetOr(default: T): T {
      match this
      case Some(v) => v
      case None => default
    }
  }
}

=== FILE: results_display.dfy ===
/** The list of search matches shown for a successful `identify_song`. */
module SongResultsDisplay {
  import opened Options
  import opened JsStrings
  import opened Genius
  import opened SongCard

  datatype ResultsView = ResultsView(heading: string, cards: seq<CardProps>, grid: bool)

  /** The heading above the cards. */
  function Heading(count: nat, showOnlyTopMatch: bool): (h: string)
    ensures h == "Found your song!" <==> showOnlyTopMatch
    ensures StartsWith(h, "Found ")
  {
    if showOnlyTopMatch then "Found your song!"
    else "Found " + NatToDecimal(count) + " potential match" + (if count != 1 then "es" else "")
  }

  /** The card for the song at `index` of the displayed list. */
  function CardFor(song: Song, index: nat, compact: bool): CardProps {
    CardProps(song.title, song.primaryArtist, song.albumArtUrl, Some(song.url), compact, index == 0)
  }

  function Cards(songs: seq<Song>, from: nat, compact: bool): (cards: seq<CardProps>)
    ensures |cards| == |songs|
    ensures forall k :: 0 <= k < |songs| ==> cards[k] == CardFor(songs[k], from + k, compact)
  {
    if |songs| == 0 then []
    else [CardFor(songs[0], from, compact)] + Cards(songs[1..], from + 1, compact)
  }

  /** `SongResultsDisplay`: nothing for missing or empty `songs`; otherwise
      the first song alone when showing only the top match, else every song
      in order; only the first card is the top match, and cards are compact
      exactly when several songs are listed. */
  function Display(songs: Option<seq<Song>>, showOnlyTopMatch: Option<bool>): (v: Option<ResultsView>)
    ensures v.None? <==> songs.None? || |songs.value| == 0
    ensures v.Some? && showOnlyTopMatch == Some(true) ==>
      && |v.value.cards| == 1
      && v.value.cards[0].title == songs.value[0].title
      && v.value.cards[0].artist == songs.value[0].primaryArtist
      && v.value.cards[0].albumArt == songs.value[0].albumArtUrl
      && v.value.cards[0].url == Some(songs.value[0].url)
      && v.value.heading == "Found your song!"
      && !v.value.grid
    ensures v.Some? && showOnlyTopMatch != Some(true) ==>
      && |v.value.cards| == |songs.value|
      && (forall k :: 0 <= k < |songs.value| ==>
            && v.value.cards[k].title == songs.value[k].title
            && v.value.cards[k].artist == songs.value[k].primaryArtist
            && v.value.cards[k].albumArt == songs.value[k].albumArtUrl
            && v.value.cards[k].url == Some(songs.value[k].url))
      && v.value.heading == Heading(|songs.value|, false)
      && v.value.grid
    ensures v.Some? ==> forall k :: 0 <= k < |v.value.cards| ==> (v.value.cards[k].isTopMatch <==> k == 0)
    ensures v.Some? ==> forall k :: 0 <= k < |v.value.cards| ==>
      (v.value.cards[k].compact <==> showOnlyTopMatch != Some(true) && |songs.value| > 1)
  {
    if songs.None? || |songs.value| == 0 then None
    else
      var all := songs.value;
      var topOnly := showOnlyTopMatch.GetOr(false);
      var displayed := if topOnly then [all[0]] else all;
      var compact := !topOnly && |all| > 1;
      Some(ResultsView(Heading(|all|, topOnly), Cards(displayed, 0, compact), !topOnly))
  }

  /** The heading names the number of matches, with "match" made plural for
      every count but one. */
  lemma HeadingCountsMatches(count: nat)
    ensures exists n: string ::
      && (forall k :: 0 <= k < |n| ==> '0' <= n[k] <= '9')
      && DecimalValue(n) == count
      && Heading(count, false) == "Found " + n + " potential match" + (if count == 1 then "" else "es")
  {
    DecimalRoundTrip(count);
    var n := NatToDecimal(count);
    assert Heading(count, false) == "Found " + n + " potential match" + (if count == 1 then "" else "es");
  }
}

=== FILE: server_tools.dfy ===
/** The MCP server's copy of `identify_song` and `get_song_details`, which
    reaches Genius through axios. The HTTP request is a parameter: the
    endpoint is a function from the request target (the query, or the song
    id) to the way the axios call settles. */
module ServerTools {
  import opened Options
  import opened Genius

  /** How an axios GET settles: a response body; an axios error, carrying the
      HTTP status when a response arrived (none on a timeout or a network
      failure) and axios's own message; or any other thrown value (for
      instance a body without the expected fields). */
  datatype AxiosOutcome<T> =
    | Response(data: T)
    | AxiosError(status: Option<int>, message: string)
    | OtherError

  /** The search found nothing: the hit list is missing or empty. */
  predicate NoHits(resp: SearchResponse) {
    resp.hits.None? || |resp.hits.value| == 0
  }

  /** The envelope for a settled search: the shared body of both copies once
      the request has been made. */
  function SearchEnvelope(limit: Option<real>, o: AxiosOutcome<SearchResponse>): SearchResult {
    match o
    case Response(data) =>
      if NoHits(data) then SearchFailure(Message(NoResults))
      else
        var songs := ToSongs(LimitHits(data.hits.value, LimitOrDefault(limit)));
        SearchResult(true, Some(|songs|), Some(songs), None)
    case AxiosError(status, message) => SearchFailure(Message(SearchStatusError(status, message)))
    case OtherError => SearchFailure(Message(SearchFailed))
  }

  /** `identifySong`: one search for the lyrics, then the envelope. */
  function IdentifySong(args: IdentifySongArgs, search: string -> AxiosOutcome<SearchResponse>): (r: SearchResult)
    ensures WellFormedSearch(r)
    ensures search(args.lyrics).Response? && NoHits(search(args.lyrics).data) ==>
      r == SearchFailure(Message(NoResults))
    ensures search(args.lyrics).Response? && !NoHits(search(args.lyrics).data) ==>
      var hits := search(args.lyrics).data.hits.value;
      && r.success
      && |r.songs.value| == SliceEnd(|hits|, MinReal(LimitOrDefault(args.limit), 5.0))
      && forall k :: 0 <= k < |r.songs.value| ==> r.songs.value[k] == ToSong(hits[k])
    ensures search(args.lyrics).AxiosError? && search(args.lyrics).status == Some(401) ==>
      r == SearchFailure("Invalid Genius API token")
    ensures search(args.lyrics).AxiosError? && search(args.lyrics).status == Some(429) ==>
      r == SearchFailure("Rate limit exceeded")
    ensures search(args.lyrics).AxiosError? && search(args.lyrics).status !in {Some(401), Some(429)} ==>
      r == SearchFailure("Genius API error: " + search(args.lyrics).message)
    ensures search(args.lyrics).OtherError? ==>
      r == SearchFailure(Message(SearchFailed))
  {
    SearchEnvelope(args.limit, search(args.lyrics))
  }

  /** Within the schema's bounds (`limit` at least 1) a successful search
      returns between one and five songs: the first `min(limit, 5)` hits, in
      upstream order. */
  lemma IdentifySongWithinSchema(args: IdentifySongArgs, search: string -> AxiosOutcome<SearchResponse>)
    requires 1.0 <= LimitOrDefault(args.limit)
    ensures var r := IdentifySong(args, search);
      r.success ==>
        var hits := search(args.lyrics).data.hits.value;
        var n := Min(Min(LimitOrDefault(args.limit).Floor, 5), |hits|);
        && 1 <= r.count.value <= 5
        && r.count.value == n
        && r.songs.value == ToSongs(hits[..n])
  {
    var r := IdentifySong(args, search);
    if r.success {
      var hits := search(args.lyrics).data.hits.value;
      var kept := LimitHits(hits, LimitOrDefault(args.limit));
      assert kept == hits[..|kept|];
    }
  }

  /** An absent `limit` behaves as `limit = 3`. */
  lemma DefaultLimitIsThree(lyrics: string, search: string -> AxiosOutcome<SearchResponse>)
    ensures IdentifySong(IdentifySongArgs(lyrics, None), search)
         == IdentifySong(IdentifySongArgs(lyrics, Some(3.0)), search)
  {
  }

  /** Outside the schema the JavaScript `slice` shows through: `limit = 0`
      answers `success: true` with no songs, and a negative limit drops hits
      from the back instead of capping at five. */
  lemma LimitOutsideSchema(lyrics: string, hits: seq<SearchHit>)
    requires |hits| == 7
    ensures var r := IdentifySong(IdentifySongArgs(lyrics, Some(0.0)), _ => Response(SearchResponse(Some(hits))));
      r.success && r.count == Some(0)
    ensures var r := IdentifySong(IdentifySongArgs(lyrics, Some(-1.0)), _ => Response(SearchResponse(Some(hits))));
      r.success && r.count == Some(6)
  {
  }

  /** The schema admits a fractional `limit`, and `slice` drops its
      fraction: `limit = 2.5` keeps two songs. */
  lemma FractionalLimitTruncates(lyrics: string, hits: seq<SearchHit>)
    requires |hits| == 7
    ensures var r := IdentifySong(IdentifySongArgs(lyrics, Some(2.5)), _ => Response(SearchResponse(Some(hits))));
      r.success && r.count == Some(2)
  {
  }

  /** The envelope for a settled song request. */
  function DetailsEnvelope(o: AxiosOutcome<RawSong>): DetailsResult {
    match o
    case Response(song) => DetailsResult(true, Some(ShapeDetails(song)), None)
    case AxiosError(status, message) => DetailsFailure(Message(DetailsStatusError(status, message)))
    case OtherError => DetailsFailure(Message(DetailsFailed))
  }

  /** `getSongDetails`: validate the id, then request that song. */
  function GetSongDetails(args: SongDetailsArgs, fetch: int -> AxiosOutcome<RawSong>): (r: DetailsResult)
    ensures WellFormedDetails(r)
    ensures ValidSongId(args.songId).None? ==>
      r == DetailsFailure(Message(InvalidSongId))
    ensures ValidSongId(args.songId).Some? ==>
      var o := fetch(args.songId.value);
      && (o.Response? ==> r.success && r.details == Some(ShapeDetails(o.data)))
      && (o.AxiosError? && o.status == Some(401) ==> r == DetailsFailure("Invalid Genius API token"))
      && (o.AxiosError? && o.status == Some(404) ==> r == DetailsFailure("Song not found"))
      && (o.AxiosError? && o.status == Some(429) ==> r == DetailsFailure("Rate limit exceeded"))
      && (o.AxiosError? && o.status !in {Some(401), Some(404), Some(429)} ==>
            r == DetailsFailure("Genius API error: " + o.message))
      && (o.OtherError? ==> r == DetailsFailure(Message(DetailsFailed)))
  {
    match ValidSongId(args.songId)
    case None => DetailsFailure(Message(InvalidSongId))
    case Some(id) => DetailsEnvelope(fetch(id))
  }

  /** A rejected id never reaches Genius: the answer is the same whatever the
      endpoint would have said. */
  lemma InvalidIdMakesNoRequest(args: SongDetailsArgs, f: int -> AxiosOutcome<RawSong>, g: int -> AxiosOutcome<RawSong>)
    requires ValidSongId(args.songId).None?
    ensures GetSongDetails(args, f) == GetSongDetails(args, g)
  {
  }

  /** A valid id is the only thing requested: two endpoints that agree on that
      id give the same answer. */
  lemma OnlyTheRequestedSongMatters(args: SongDetailsArgs, f: int -> AxiosOutcome<RawSong>, g: int -> AxiosOutcome<RawSong>)
    requires ValidSongId(args.songId).Some?
    requires f(args.songId.value) == g(args.songId.value)
    ensures GetSongDetails(args, f) == GetSongDetails(args, g)
  {
  }
}

=== FILE: web_tools.dfy ===
/** The web app's copy of `identify_song` and `get_song_details`, which
    reaches Genius through `fetch` with an abort signal, and reads the token
    from the environment on every call. */
module WebTools {
  import opened Options
  import opened JsStrings
  import opened Genius
  import ServerTools

  /** How a `fetch` settles: an ok response and its body; a response that is
      not ok (a status outside 200-299) with its status line; a rejection
      with an error named "TimeoutError", which is what the call's own
      `AbortSignal.timeout(10000)` raises when the ten seconds pass (section
      "AbortSignal.timeout" of the DOM Standard); a rejection with an error
      named "AbortError", which comes only from an abort of another origin;
      a rejection because no response arrived at all (a network failure,
      which `fetch` reports as a `TypeError`); or an error thrown while the
      response is handled (a body that is not JSON or lacks the expected
      fields). */
  datatype FetchOutcome<T> =
    | Ok(data: T)
    | NotOk(status: int, statusText: string)
    | TimeoutError
    | AbortError
    | NetworkError
    | Threw

  /** `process.env.GENIUS_ACCESS_TOKEN` is set and non-empty. */
  predicate TokenConfigured(token: Option<string>) {
    TruthyOpt(token)
  }

  /** `identifySong`: the token guard, one search for the lyrics, then the
      envelope. */
  function IdentifySong(args: IdentifySongArgs, token: Option<string>, search: string -> FetchOutcome<SearchResponse>): (r: SearchResult)
    ensures WellFormedSearch(r)
    ensures !TokenConfigured(token) ==> r == SearchFailure(Message(MissingToken))
    ensures TokenConfigured(token) ==>
      var o := search(args.lyrics);
      && (o.NotOk? && o.status == 401 ==> r == SearchFailure("Invalid Genius API token"))
      && (o.NotOk? && o.status == 429 ==> r == SearchFailure("Rate limit exceeded"))
      && (o.NotOk? && o.status != 401 && o.status != 429 ==>
            r == SearchFailure("Genius API error: " + o.statusText))
      && (o.Ok? && ServerTools.NoHits(o.data) ==> r == SearchFailure(Message(NoResults)))
      && (o.Ok? && !ServerTools.NoHits(o.data) ==>
            var hits := o.data.hits.value;
            && r.success
            && |r.songs.value| == SliceEnd(|hits|, MinReal(LimitOrDefault(args.limit), 5.0))
            && forall k :: 0 <= k < |r.songs.value| ==> r.songs.value[k] == ToSong(hits[k]))
      && (o.AbortError? ==> r == SearchFailure("Request timed out. Please try again."))
      && (o.TimeoutError? || o.NetworkError? || o.Threw? ==> r == SearchFailure(Message(SearchFailed)))
  {
    if !TokenConfigured(token) then SearchFailure(Message(MissingToken))
    else
      match search(args.lyrics)
      case NotOk(status, statusText) => SearchFailure(Message(SearchStatusError(Some(status), statusText)))
      case Ok(data) => ServerTools.SearchEnvelope(args.limit, ServerTools.Response(data))
      case AbortError => SearchFailure(Message(TimedOut))
      case TimeoutError => SearchFailure(Message(SearchFailed))
      case NetworkError => SearchFailure(Message(SearchFailed))
      case Threw => SearchFailure(Message(SearchFailed))
  }

  /** `getSongDetails`: the token guard first, then the id check, then the
      request for that song. */
  function GetSongDetails(args: SongDetailsArgs, token: Option<string>, fetch: int -> FetchOutcome<RawSong>): (r: DetailsResult)
    ensures WellFormedDetails(r)
    ensures !TokenConfigured(token) ==> r == DetailsFailure(Message(MissingToken))
    ensures TokenConfigured(token) && ValidSongId(args.songId).None? ==>
      r == DetailsFailure(Message(InvalidSongId))
    ensures TokenConfigured(token) && ValidSongId(args.songId).Some? ==>
      var o := fetch(args.songId.value);
      && (o.Ok? ==> r.success && r.details == Some(ShapeDetails(o.data)))
      && (o.NotOk? && o.status == 401 ==> r == DetailsFailure("Invalid Genius API token"))
      && (o.NotOk? && o.status == 404 ==> r == DetailsFailure("Song not found"))
      && (o.NotOk? && o.status == 429 ==> r == DetailsFailure("Rate limit exceeded"))
      && (o.NotOk? && o.status !in {401, 404, 429} ==>
            r == DetailsFailure("Genius API error: " + o.statusText))
      && (o.AbortError? ==> r == DetailsFailure("Request timed out. Please try again."))
      && (o.TimeoutError? || o.NetworkError? || o.Threw? ==> r == DetailsFailure(Message(DetailsFailed)))
  {
    if !TokenConfigured(token) then DetailsFailure(Message(MissingToken))
    else
      match ValidSongId(args.songId)
      case None => DetailsFailure(Message(InvalidSongId))
      case Some(id) =>
        match fetch(id)
        case NotOk(status, statusText) => DetailsFailure(Message(DetailsStatusError(Some(status), statusText)))
        case Ok(song) => DetailsResult(true, Some(ShapeDetails(song)), None)
        case AbortError => DetailsFailure(Message(TimedOut))
        case TimeoutError => DetailsFailure(Message(DetailsFailed))
        case NetworkError => DetailsFailure(Message(DetailsFailed))
        case Threw => DetailsFailure(Message(DetailsFailed))
  }

  /** Without a token nothing else is looked at, not even an invalid id. */
  lemma MissingTokenComesFirst(args: SongDetailsArgs, token: Option<string>, f: int -> FetchOutcome<RawSong>)
    requires !TokenConfigured(token)
    requires ValidSongId(args.songId).None?
    ensures GetSongDetails(args, token, f).error == Some(Message(MissingToken))
    ensures GetSongDetails(args, token, f).error != Some(Message(InvalidSongId))
  {
    assert Message(MissingToken) != Message(InvalidSongId) by {
      if Message(MissingToken) == Message(InvalidSongId) {
        MessageInjective(MissingToken, InvalidSongId);
      }
    }
  }

  /** The request got no response: it timed out, was aborted, or failed on
      the network. */
  predicate NoResponse<T>(o: FetchOutcome<T>) {
    o.TimeoutError? || o.AbortError? || o.NetworkError?
  }

  /** The outcome axios reports for a fetch outcome: an ok body is the
      response, a non-ok status is an axios error carrying it (with the status
      text in place of axios's message), a throw while handling the response
      stays one, and a request without a response (timeout, abort, network
      failure) is an axios error without a status, carrying axios's own
      message for it. */
  function AsAxios<T>(o: FetchOutcome<T>, noResponseMessage: string): ServerTools.AxiosOutcome<T> {
    match o
    case Ok(data) => ServerTools.Response(data)
    case NotOk(status, statusText) => ServerTools.AxiosError(Some(status), statusText)
    case TimeoutError => ServerTools.AxiosError(None, noResponseMessage)
    case AbortError => ServerTools.AxiosError(None, noResponseMessage)
    case NetworkError => ServerTools.AxiosError(None, noResponseMessage)
    case Threw => ServerTools.OtherError
  }

  /** With a token configured and a response received, the two copies of
      `identify_song` answer alike. */
  lemma IdentifySongCopiesAgree(args: IdentifySongArgs, token: Option<string>,
                                search: string -> FetchOutcome<SearchResponse>, noResponseMessage: string)
    requires TokenConfigured(token)
    requires !NoResponse(search(args.lyrics))
    ensures IdentifySong(args, token, search)
         == ServerTools.IdentifySong(args, q => AsAxios(search(q), noResponseMessage))
  {
  }

  /** With a token configured and a response received, the two copies of
      `get_song_details` answer alike. */
  lemma GetSongDetailsCopiesAgree(args: SongDetailsArgs, token: Option<string>,
                                  fetch: int -> FetchOutcome<RawSong>, noResponseMessage: string)
    requires TokenConfigured(token)
    requires ValidSongId(args.songId).Some? ==> !NoResponse(fetch(args.songId.value))
    ensures GetSongDetails(args, token, fetch)
         == ServerTools.GetSongDetails(args, id => AsAxios(fetch(id), noResponseMessage))
  {
  }

  /** Where the copies part on a timeout: the web copy's own timeout raises a
      "TimeoutError", which its "AbortError" test does not catch, so it
      answers with the unexpected-error text; the server copy reports
      axios's timeout message as a Genius API error. Neither says that the
      request timed out. */
  lemma TimeoutAnswersDiffer(lyrics: string, limit: Option<real>, args: SongDetailsArgs,
                             token: Option<string>, timeoutMessage: string)
    requires TokenConfigured(token)
    requires ValidSongId(args.songId).Some?
    ensures var web := IdentifySong(IdentifySongArgs(lyrics, limit), token, _ => TimeoutError);
            var server := ServerTools.IdentifySong(IdentifySongArgs(lyrics, limit),
                                                   _ => AsAxios<SearchResponse>(TimeoutError, timeoutMessage));
            && web.error == Some(Message(SearchFailed))
            && server.error == Some(Message(Upstream(timeoutMessage)))
            && web != server
    ensures var web := GetSongDetails(args, token, _ => TimeoutError);
            var server := ServerTools.GetSongDetails(args, _ => AsAxios<RawSong>(TimeoutError, timeoutMessage));
            && web.error == Some(Message(DetailsFailed))
            && server.error == Some(Message(Upstream(timeoutMessage)))
            && web != server
  {
    if Message(SearchFailed) == Message(Upstream(timeoutMessage)) {
      MessageInjective(SearchFailed, Upstream(timeoutMessage));
    }
    if Message(DetailsFailed) == Message(Upstream(timeoutMessage)) {
      MessageInjective(DetailsFailed, Upstream(timeoutMessage));
    }
  }

  /** Where the copies part on a network failure: `fetch` rejects with a
      `TypeError`, which the web copy answers with the unexpected-error
      text; axios raises an axios error without a response, which the server
      copy reports as a Genius API error carrying axios's message. */
  lemma NetworkFailureAnswersDiffer(lyrics: string, limit: Option<real>, args: SongDetailsArgs,
                                    token: Option<string>, networkMessage: string)
    requires TokenConfigured(token)
    requires ValidSongId(args.songId).Some?
    ensures var web := IdentifySong(IdentifySongArgs(lyrics, limit), token, _ => NetworkError);
            var server := ServerTools.IdentifySong(IdentifySongArgs(lyrics, limit),
                                                   _ => AsAxios<SearchResponse>(NetworkError, networkMessage));
            && web.error == Some(Message(SearchFailed))
            && server.error == Some(Message(Upstream(networkMessage)))
            && web != server
    ensures var web := GetSongDetails(args, token, _ => NetworkError);
            var server := ServerTools.GetSongDetails(args, _ => AsAxios<RawSong>(NetworkError, networkMessage));
            && web.error == Some(Message(DetailsFailed))
            && server.error == Some(Message(Upstream(networkMessage)))
            && web != server
  {
  }

  /** The "Request timed out" text comes only from an "AbortError": with a
      token configured, a search answers with it if and only if the fetch
      rejected with that error, and the code's own timeout never does. */
  lemma TimedOutTextOnlyFromAbortError(args: IdentifySongArgs, token: Option<string>,
                                       search: string -> FetchOutcome<SearchResponse>)
    requires TokenConfigured(token)
    ensures IdentifySong(args, token, search).error == Some(Message(TimedOut))
        <==> search(args.lyrics).AbortError?
  {
    var o := search(args.lyrics);
    var r := IdentifySong(args, token, search);
    if r.error == Some(Message(TimedOut)) {
      match o
      case Ok(data) =>
        if ServerTools.NoHits(data) { MessageInjective(TimedOut, NoResults); }
      case NotOk(status, text) => MessageInjective(TimedOut, SearchStatusError(Some(status), text));
      case TimeoutError => MessageInjective(TimedOut, SearchFailed);
      case AbortError =>
      case NetworkError => MessageInjective(TimedOut, SearchFailed);
      case Threw => MessageInjective(TimedOut, SearchFailed);
    }
  }
}
